=== FILE: README.md ===
# BUG-WISHPER core, modelled in Dafny

BUG-WISHPER analyses a JavaScript snippet. It reports issues, each with a line, a severity (`error` or `warning`), a message and a one-line suggestion. It also returns a repaired text (`fixed_code`) and a short four-line lesson. This project models the logic around that pipeline and proves properties of it.

- **`EslintAnalyzer`** (`analyzer/eslintAnalyzer.js`): what `analyzeJS` does with the answer of the ESLint engine. The engine itself is a value of type `LintOutcome`: either messages plus an optional repaired text, or the message of the error it threw. The module covers:
  - turning messages into issues;
  - the `output || code` fallback;
  - `applyCustomFixes`, which declares line-initial assignments to names reported as `'X' is not defined`;
  - the line number taken from a failed run;
  - the rule-suggestion catalog and the syntax-error classifier.
- **`SimpleAnalyzer`** (`api/analyze.js`): `simpleAnalyzeJS`, the line-by-line heuristic analyzer. The method `SimpleAnalyzeJS` keeps the source's loop and is proved equal to a fold over the lines (`SimpleAnalysis`). Every other property is proved about that fold.
- **`Lesson`** (`server.js` and `api/analyze.js`): `generateLesson`. Its two copies are textually identical, so one definition models both.
- **`Requests`** (`server.js`, `api/analyze.js`): the request-field check the two `/api/analyze` handlers share, and the serverless handler's answer.
- **`FileList`** (`frontend/src/App.jsx`): the front end's file list, as a class `Workspace`. It holds the files, the current index, the editor's file name and code, and the error banner. It also models which files an upload accepts.
- **`Text`** and **`Issues`**: the JavaScript string operations the core uses (`split`, `trim`, `includes`, `replace`, `toLowerCase`, `lastIndexOf`, decimal numerals), and the issue record.

## Model

Some operations are plain definitions without a contract of their own; the lemmas in the table state what they do:
- `DeclareAssignments` (the rewrite for one name): `DeclareOnlyInserts`, `DeclareLeavesClean`, `AssignmentReflected`, `CleanIsFixed`.
- `FixForIssue`, `FixesFor` and `CustomFixes` (the `applyCustomFixes` loop): `FixForIssueInserts`, `FixesOnlyInsert`, `FixesLeaveClean`, `CustomFixesIdempotent`, `ApplyCustomFixes`.
- `CheckLine`, `StringError`, `MissingSemicolon`, `UsesVar` and `ClosingQuote` (one line's rules): `StringErrorIffOdd`, `RuleIssuesReport`, `QuoteFixedLine`.
- `PatchLine`, `IssuesOf`, `FixesOf`, `Checks` and `SimpleAnalysis` (the fold over the lines): `SimpleAnalyzeJS`, `IssuesOfOrdered`, `IssuesOfOnLine`, `PatchLineNoVar`, `PatchLineKeepsNewlines`.
- `FocusOf` and `GenerateLesson` (the lesson): `FocusIsFirstMatch`, `NoIssuesExcellent`, `FourLines`.
- `LoadAll` (reading the files of an upload): `Workspace.Upload`.

| member | source | states |
|---|---|---|
| Issues.CountSeverity | server.js:32-33 | the number of issues with a given severity never exceeds the number of issues |
| Issues.CountSeverityConcat | server.js:32-33 | the count over two lists joined is the sum of their counts |
| Issues.CountSeverityTotal | server.js:32-33 | the error count and the warning count add up to the number of issues |
| Issues.CountSeverityZero | server.js:32-33 | a count is zero exactly when no issue has that severity |
| Text.JoinSplit | api/analyze.js:6 | joining the pieces of `split('\n')` with `\n` gives back the text |
| Text.LastIndexOf | api/analyze.js:29 | `lastIndexOf` gives the last position of the character, or -1 exactly when it is absent |
| Text.CountReplaceFirst | api/analyze.js:32 | replacing the first occurrence of a pattern keeps a character's count when the pattern and its replacement have the same count |
| Text.CountReplaceAll | api/analyze.js:76 | the same for replacing every occurrence |
| EslintAnalyzer.GenerateSuggestion | analyzer/eslintAnalyzer.js:146-174 | a rule id in the catalog gets its entry; a missing or unknown rule id gets the default suggestion; the suggestion is never empty |
| EslintAnalyzer.NoVarSuggestion | analyzer/eslintAnalyzer.js:146-174 | example: `no-var`, `no-undef` and `prefer-const` get their catalog sentences |
| EslintAnalyzer.SyntaxErrorSuggestion | analyzer/eslintAnalyzer.js:186-224 | a case-insensitive `unexpected token` gives a token hint; otherwise `unterminated string` wins over `unterminated comment`, which wins over `invalid character`; anything else gets the generic hint; each case holds in both directions |
| EslintAnalyzer.SyntaxSuggestionIsRuleTable | analyzer/eslintAnalyzer.js:189-223 | the if-chain equals a first-match over two ordered tables: the bracket characters `} { ) ( ] [`, then the three phrases |
| EslintAnalyzer.UnexpectedClosingBrace | analyzer/eslintAnalyzer.js:186-192 | example: `Unexpected token }` gets the opening-brace suggestion |
| EslintAnalyzer.FindLineRef | analyzer/eslintAnalyzer.js:87 | finds the leftmost case-insensitive `line <digit>`, or reports that there is none |
| EslintAnalyzer.ExtractLine | analyzer/eslintAnalyzer.js:86-90 | gives the number after the leftmost `line <digits>`, else 1 |
| EslintAnalyzer.LineNumberRoundTrip | analyzer/eslintAnalyzer.js:87-89 | any capitalisation of `line`, a space and a printed number give back that number |
| EslintAnalyzer.QuotedNameAt | analyzer/eslintAnalyzer.js:118 | a match found at a position is a quote, a non-empty quote-free name, and `' is not defined` |
| EslintAnalyzer.UndefinedNameFrom | analyzer/eslintAnalyzer.js:118 | finding no name means no match from that position; a name it finds is non-empty and quote-free, and the message contains it in the phrase |
| EslintAnalyzer.UndefinedNameFromLeftmost | analyzer/eslintAnalyzer.js:118 | when no match starts between the search position and a match at `k`, the search returns the capture at `k` |
| EslintAnalyzer.UndefinedNameLeftmost | analyzer/eslintAnalyzer.js:118-120 | the extracted name is the capture of the leftmost match in the message |
| EslintAnalyzer.FirstOfTwoNames | analyzer/eslintAnalyzer.js:118-120 | example: from `'a' is not defined, 'b' is not defined` the name extracted is `a` |
| EslintAnalyzer.UndefinedName | analyzer/eslintAnalyzer.js:118-120 | an extracted name is non-empty and quote-free, and the message names it as not defined; when none is extracted, no position of the message starts a match |
| EslintAnalyzer.UndefinedNameFound | analyzer/eslintAnalyzer.js:118-119 | every message containing `'x' is not defined` with a quote-free `x` yields a name |
| EslintAnalyzer.UndefinedNameLeading | analyzer/eslintAnalyzer.js:118-120 | a message that opens with `'x' is not defined` yields exactly `x` |
| EslintAnalyzer.TotalIsNotDefined | analyzer/eslintAnalyzer.js:117-118 | example: `'total' is not defined.` yields `total` |
| EslintAnalyzer.AssignmentReflected | analyzer/eslintAnalyzer.js:123-128 | the rewrite never creates an identifier-and-`=` at the front of the text that was not already there |
| EslintAnalyzer.DeclareLeavesClean | analyzer/eslintAnalyzer.js:123-128 | after the rewrite for a name, no line-initial assignment to it is left, and a text already clean for another identifier stays clean |
| EslintAnalyzer.CleanIsFixed | analyzer/eslintAnalyzer.js:123-128 | the rewrite leaves a clean text unchanged |
| EslintAnalyzer.DeclareOnlyInserts | analyzer/eslintAnalyzer.js:123-128 | the rewrite only inserts copies of `let `: the input survives as a subsequence, the growth is a multiple of four and the number of lines is the same. For a name over `[A-Za-z0-9_]`, the result is exactly the input with `let ` spliced in before every position that is line-initial (reached from a line start by whitespace only) and starts `name\s*=` (`LetSites`, `InsertLets`) |
| EslintAnalyzer.DeclareIndented | analyzer/eslintAnalyzer.js:123-128 | an indented `name = …` on the first line becomes `indent + "let " + name = …` |
| EslintAnalyzer.DeclarePastIndents | analyzer/eslintAnalyzer.js:123-128 | whitespace at a line start (the `(\s*)` group) is copied unchanged, and the rewrite of what follows proceeds as at the line start |
| EslintAnalyzer.IndentedAssignmentDeclared | analyzer/eslintAnalyzer.js:123-128 | example: `  total = 0;` becomes `  let total = 0;` |
| EslintAnalyzer.UndefinedIssues | analyzer/eslintAnalyzer.js:114 | keeps only issues whose message contains `is not defined`, and every such issue |
| EslintAnalyzer.UndefinedIssuesConcat | analyzer/eslintAnalyzer.js:114 | the filter of two lists joined is the two filters joined, so order and multiplicity are kept |
| EslintAnalyzer.UndefinedIssuesOne | analyzer/eslintAnalyzer.js:114 | on one issue the filter keeps it exactly when its message contains `is not defined`, and otherwise gives the empty list |
| EslintAnalyzer.ApplyCustomFixes | analyzer/eslintAnalyzer.js:110-133 | the loop over the undefined-name issues returns the rewrite for each extracted name, in order |
| EslintAnalyzer.FixForIssueClean | analyzer/eslintAnalyzer.js:118-128 | one round of the loop makes the text clean for its name and keeps it clean for the others |
| EslintAnalyzer.FixesLeaveClean | analyzer/eslintAnalyzer.js:116-130 | after the loop, the text is clean for every extracted name |
| EslintAnalyzer.FixesOfCleanText | analyzer/eslintAnalyzer.js:116-130 | the loop leaves a text unchanged if it is clean for every name |
| EslintAnalyzer.CustomFixesIdempotent | analyzer/eslintAnalyzer.js:110-133 | running `applyCustomFixes` again on its own output with the same issues changes nothing |
| EslintAnalyzer.FixesWithoutNames | analyzer/eslintAnalyzer.js:118-119 | issues whose message has no `'X' is not defined` leave the text unchanged |
| EslintAnalyzer.CustomFixesNeedNotDefined | analyzer/eslintAnalyzer.js:114 | without an `is not defined` message, the text is unchanged |
| EslintAnalyzer.ToIssue | analyzer/eslintAnalyzer.js:63-68 | one engine message as an issue: same line and message, `error` exactly for severity 2, the catalog suggestion for a known rule id, never an empty suggestion |
| EslintAnalyzer.FixForIssueInserts | analyzer/eslintAnalyzer.js:118-128 | one round only inserts text, four characters at a time, and adds no line; when the extracted name is over `[A-Za-z0-9_]`, the result is the text with `let ` spliced in before each line-initial assignment to that name |
| EslintAnalyzer.FixesOnlyInsert | analyzer/eslintAnalyzer.js:116-130 | the whole loop only inserts text, four characters at a time, and adds no line; when every extracted name is over `[A-Za-z0-9_]`, the result is the input with `let ` spliced in once before each position of the input that is line-initial and starts an assignment to one of the names (`FixSites`) |
| EslintAnalyzer.FixSitesIff | analyzer/eslintAnalyzer.js:116-128 | a position is one of the loop's sites exactly when the name of some issue puts it there |
| EslintAnalyzer.BaseText | analyzer/eslintAnalyzer.js:71 | the text to fix is the engine's non-empty output, else the input |
| EslintAnalyzer.AnalyzeJS | analyzer/eslintAnalyzer.js:63-100 | on success: one issue per message, in order, with the same line and message; severity `error` exactly for severity 2; the catalog suggestion; the fixed text is the custom fixes applied to the engine's output or the input. On failure: one error issue whose line is taken from the error text, and the input text unchanged |
| EslintAnalyzer.OneUndefinedName | analyzer/eslintAnalyzer.js:63-74 | a run with one message naming an undefined variable, and no engine output, gives the input with that variable's line-initial assignments declared |
| EslintAnalyzer.AnalyzeKeepsLines | analyzer/eslintAnalyzer.js:71-74 | the fixed text keeps the text it starts from as a subsequence and has the same number of lines |
| EslintAnalyzer.UndeclaredTotalGetsLet | analyzer/eslintAnalyzer.js:63-74 | example: a `no-undef` report for `total` on `  total = 0;` yields `  let total = 0;` |
| SimpleAnalyzer.QuotePosition | api/analyze.js:29-30 | the insertion point is the last `)` of the line, or the line's end when it has no `)` |
| SimpleAnalyzer.QuoteFixedLine | api/analyze.js:28-43 | the repaired line is the line with one quote character inserted at that point |
| SimpleAnalyzer.StringErrorIffOdd | api/analyze.js:15-19 | a line is an unterminated-string error exactly when its count of `"` or its count of `'` is odd |
| SimpleAnalyzer.RuleIssuesReport | api/analyze.js:15-77 | each of the three issues is reported on a line exactly when its rule fires there |
| SimpleAnalyzer.CheckQuotes | api/analyze.js:14-46 | appends the string error and applies the quote repair exactly when the line has an unterminated string |
| SimpleAnalyzer.CheckSemicolon | api/analyze.js:48-64 | appends the semicolon warning and applies the semicolon repair exactly when the semicolon rule fires |
| SimpleAnalyzer.CheckVar | api/analyze.js:66-77 | appends the var warning and rewrites every `var ` exactly when the trimmed line contains `var ` |
| SimpleAnalyzer.AnalyzeLine | api/analyze.js:10-78 | one pass of the `forEach` body appends that line's issues and applies that line's repairs |
| SimpleAnalyzer.SimpleAnalyzeJS | api/analyze.js:4-84 | the loop returns the fold of the line verdicts over the text |
| SimpleAnalyzer.IssuesOfOrdered | api/analyze.js:10-77 | issue lines lie between 1 and the number of lines, in non-decreasing order |
| SimpleAnalyzer.IssuesOfOnLine | api/analyze.js:10-77 | line `n` carries exactly its rule issues: string error, then semicolon, then var |
| SimpleAnalyzer.SimpleIssuesByLine | api/analyze.js:10-77 | for the whole text: lines in range and ordered, and each line's issues are those of its rules, in the source's order |
| SimpleAnalyzer.VarLineReported | api/analyze.js:67-73 | a line that uses `var ` gets the var warning on its own line number |
| SimpleAnalyzer.NoVarAfterReplace | api/analyze.js:76 | after replacing every `var ` by `const `, `var ` occurs at no position |
| SimpleAnalyzer.NoVarAfterReplaceContains | api/analyze.js:76 | the replaced text does not contain `var ` |
| SimpleAnalyzer.QuotePatchKeepsNoVar | api/analyze.js:28-43 | the quote repair cannot create `var ` |
| SimpleAnalyzer.SemicolonPatchKeepsNoVar | api/analyze.js:63 | the semicolon repair cannot create `var ` |
| SimpleAnalyzer.PatchLineNoVar | api/analyze.js:32-76 | a line's repairs leave no `var ` when the line uses `var ` or the text had none |
| SimpleAnalyzer.FixesOfNoVar | api/analyze.js:10-78 | once some line has used `var `, no `var ` survives to the end |
| SimpleAnalyzer.SimpleFixRemovesVar | api/analyze.js:67-76 | if any line uses `var `, `fixed_code` contains no `var ` |
| SimpleAnalyzer.PatchLineKeepsNewlines | api/analyze.js:31-76 | a line's repairs keep the number of `\n` characters |
| SimpleAnalyzer.FixesOfKeepsNewlines | api/analyze.js:10-78 | all repairs keep the number of `\n` characters |
| SimpleAnalyzer.SimpleFixKeepsLines | api/analyze.js:6-83 | `fixed_code` has as many `\n` characters as the input |
| SimpleAnalyzer.EmptyInput | api/analyze.js:4-84 | example: the empty text gives no issues and the empty text back |
| SimpleAnalyzer.VanishedLineUnpatched | api/analyze.js:32 | one-step fact: a first-occurrence replacement of a line that no longer occurs leaves the text unchanged |
| Lesson.NoIssuesExcellent | server.js:28-29 | with no issues the lesson is exactly the fixed "Excellent!" text (the same text as api/analyze.js:90-91) |
| Lesson.FirstFocusPriority | server.js:44-64 | in a priority table, the first keyword group some message mentions decides, whatever later groups say |
| Lesson.FirstFocusFallback | server.js:38-41 | with no group mentioned, the focus is code quality |
| Lesson.FocusIsFirstMatch | server.js:37-64 | the lesson's if-chain equals a first match over the ordered groups `var`; `semicolon`/`semi`; `unused`; `undefined`/`undef` |
| Lesson.LongKeywordsRedundant | server.js:49-59 | a mention of `semicolon` is a mention of `semi`, and a mention of `undefined` is a mention of `undef` |
| Lesson.VarWarningFocus | server.js:44-48 | the built-in analyzer's var warning anywhere in the list selects variable declarations |
| Lesson.SemicolonWarningFocus | server.js:49-53 | its missing-semicolon warning selects syntax consistency unless some message mentions `var` |
| Lesson.NotDefinedMessageHasNoFocus | server.js:37-64 | example: a lone `'total' is not defined.` gives the code-quality focus |
| Lesson.QualityFallback | server.js:37-64 | a lone message without the letters v, m and u gives the code-quality focus |
| Lesson.HeaderCount | server.js:66-68 | the number in the header reads back as the error count when there is an error, else as the warning count |
| Lesson.HeaderLineCount | server.js:66-68 | the same, for any counts and focus |
| Lesson.FixWordingDependsOnChange | server.js:34-62 | outside the var and semicolon areas, the lesson does not depend on whether the text changed; inside them, a change gives a different lesson |
| Lesson.FourLines | server.js:68-71 | for a non-empty issue list, the lesson is header, Cause, Fix and Practice-tip lines joined by `\n`, and splitting it at `\n` gives exactly those four lines (as in api/analyze.js:130-133) |
| Requests.ProceedIff | server.js:80-91 | a request proceeds exactly when language, filename and code are present and non-empty and the language is `javascript` |
| Requests.MissingFieldsFirst | server.js:80-91 | a missing or empty field is reported whatever the language is; the language error comes only when nothing is missing; every rejection has status 400 |
| Requests.ValidateFields | server.js:80-91 | proceeds exactly when every field is present and the language is `javascript`; every rejection has status 400, and a missing field gives the missing-fields error |
| Requests.ValidateRequest | api/analyze.js:170-194 | proceeds exactly when there is a body whose fields proceed; every rejection has status 400, and no body gives `No request body provided` |
| Requests.HandlersAgree | api/analyze.js:170-194 | with a body, the serverless check decides as the server's; without one it rejects with `No request body provided` |
| Requests.Respond | api/analyze.js:168-214 | the handler answers with the check's own status and error exactly when the check rejects; otherwise the request has every field and language `javascript`, and the answer carries the built-in analyzer's issues and fixed text and the lesson generated from them |
| Requests.VarCodeLesson | api/analyze.js:196-204 | code with a line that uses `var ` is answered with a lesson about variable declarations |
| FileList.Rejection | frontend/src/App.jsx:138-147 | a file draws no complaint exactly when its name ends in `.js` or `.jsx` and its size is at most 1024*1024; the complaint starts with the file name, and the name check comes first |
| FileList.AcceptedFiles | frontend/src/App.jsx:136-150 | the accepted files are acceptable files of the batch |
| FileList.Rejections | frontend/src/App.jsx:136-150 | never more complaints than files, and none at all exactly when every file of the batch is acceptable |
| FileList.RejectionsConcat | frontend/src/App.jsx:136-150 | the complaints about two batches joined are the two complaint lists joined, so they keep the batch order |
| FileList.RejectionsOne | frontend/src/App.jsx:138-147 | one file draws no complaint when acceptable, and otherwise exactly its own complaint |
| FileList.AcceptedFilesConcat | frontend/src/App.jsx:136-150 | the accepted files of two batches joined are the two accepted lists joined, in order |
| FileList.AcceptedFilesOne | frontend/src/App.jsx:138-149 | one file is accepted exactly when it is acceptable |
| FileList.ValidateUploads | frontend/src/App.jsx:133-150 | the loop sorts the batch into the accepted files and the complaints, in order |
| FileList.AcceptedIff | frontend/src/App.jsx:138-149 | a file is accepted exactly when it is in the batch and acceptable |
| FileList.EveryFileSorted | frontend/src/App.jsx:136-150 | every file is either accepted or complained about, never both |
| FileList.NoRejectionAcceptsAll | frontend/src/App.jsx:152-162 | without a complaint, the whole batch is accepted in its order |
| FileList.RemoveAt | frontend/src/App.jsx:205 | the list without the element at the index, the others in order |
| FileList.CurrentAfterRemove | frontend/src/App.jsx:207-223 | for an index of the list and a current index in range, the new current index is in range of the shorter list, and is -1 exactly when none was current or the only file was removed |
| FileList.RemoveKeepsCurrentFile | frontend/src/App.jsx:220-223 | removing another file keeps the same file current and the index in range |
| FileList.RemoveCurrentHandsOver | frontend/src/App.jsx:208-219 | removing the current file hands over to the following file, or to the new last file when it was last, or to none (-1) when it was alone |
| FileList.StaleAutoSelectNeverFires | frontend/src/App.jsx:184-187 | as written, the auto-select after an upload never selects, although the index it passes is in the new list |
| FileList.StaleRemovalShown | frontend/src/App.jsx:211-213 | as written, the editor is filled from the list before the removal |
| FileList.StaleRemovalShowsRemovedFile | frontend/src/App.jsx:208-213 | as written, removing a current file that is not last leaves the editor on the removed file, while the current index names the next one |
| FileList.StaleRemovalExample | frontend/src/App.jsx:204-213 | example: with two files, removing the first (current) one keeps the editor on the first |
| FileList.Workspace.constructor | frontend/src/App.jsx:6-17 | an empty list, no current file (-1), `example.js` and empty code, no error |
| FileList.Workspace.Select | frontend/src/App.jsx:194-202 | an index in range becomes current and fills the editor; any other index changes nothing |
| FileList.Workspace.Upload | frontend/src/App.jsx:132-192 | all or nothing: any complaint sets the joined complaints as the error and adds nothing; an empty batch sets `No valid JavaScript files found`; otherwise clears the error, appends the files and selects the first new one when none was current |
| FileList.Workspace.Remove | frontend/src/App.jsx:204-224 | new list and new current index as above; after removing the current file the editor shows the new current file, or `example.js` and empty code when the list is empty; the current index stays in range and the editor keeps showing the current file |
| FileList.Workspace.Previous | frontend/src/App.jsx:462 | with two files or more and a current index past the first, steps to the previous file and fills the editor with its name and content; otherwise nothing changes |
| FileList.Workspace.Next | frontend/src/App.jsx:473 | with two files or more and a current index before the last, steps to the next file (from -1 to the first) and fills the editor with its name and content; otherwise nothing changes |
| FileList.Workspace.ClearAll | frontend/src/App.jsx:264-271 | an empty list, no current file, `example.js`, empty code and no error |

## Left out

- The ESLint engine itself (analyzer/eslintAnalyzer.js:30-59) is a foreign library. Its answer, or the message of the error it throws, is an input (`LintOutcome`).
- HTTP handling is input and output and is not modelled. This covers:
  - CORS headers, the OPTIONS/GET/405 method gate, the test answer to GET;
  - logging, JSON encoding, the 500 answer on an exception;
  - the `received` diagnostic object in the missing-fields answer;
  - the server's `analyzeJS` call.
- A request body field that is not a string (a number or a boolean) is not modelled. `Requests.Present` treats a field as a string that is absent or present, and empty or not.
- React rendering and reading files are not modelled. This covers `FileReader`, `Promise.all` and its read-error message, `fetch`, the analysis panel that `selectFile` clears, and typing in the editor.
- `markFileAsAnalyzed` is not modelled. It mutates a shared list entry and re-runs the upload handler with an undefined variable.
- The float KB size display (frontend/src/App.jsx:412) is not modelled.
- Strings are ASCII. This affects three operations:
  - `trim` removes ASCII whitespace only;
  - `toLowerCase` maps `A`-`Z` only;
  - `\s` in the regular expressions is ASCII whitespace.
- `$` patterns in replacement strings (api/analyze.js:32, 63) are not modelled. Replacements insert the text literally.
- EslintAnalyzer.DeclareAssignments: compares the reported name literally, which agrees with the source only for names over `[A-Za-z0-9_]` (the ones `IsIdentifier` admits). The source splices the name into a regular expression unescaped. So a name holding an operator character behaves differently there: for `'$el' is not defined` the `$` is a line anchor, the pattern never matches, and the source inserts nothing, whereas this function inserts `let ` before `$el =`. For such names only the facts that hold of any insertion (`DeclareOnlyInserts`, `FixesOnlyInsert`) are proved.
- EslintAnalyzer.UndefinedName: the contract does not itself say that the name comes from the leftmost match. That is stated by the lemma `UndefinedNameLeftmost` (with `UndefinedNameFromLeftmost`), because a quantified clause in the function's contract makes every proof that mentions the function much more expensive.
- EslintAnalyzer.DeclareOnlyInserts: the exact splice form is proved only for names over `[A-Za-z0-9_]`, for the reason given under `DeclareAssignments` above. For other names only the insertion facts are proved.
- EslintAnalyzer.FixForIssueInserts: the same restriction to names over `[A-Za-z0-9_]` for the exact splice form.
- EslintAnalyzer.FixesOnlyInsert: the same restriction; the exact form needs every extracted name to be over `[A-Za-z0-9_]`.
- EslintAnalyzer.GenerateSuggestion: inherited object keys such as `toString` used as a rule id are not modelled. Only the 23 listed rule ids have entries.
- The escape-aware quote recovery that the repository's console test scripts look for (`preProcessSyntaxFixes`) is not part of this model. It is not defined in analyzer/eslintAnalyzer.js.
- The demo snippets and console test scripts are sample inputs, not logic.
- FileList.Workspace.Remove requires an index of the list. The source calls it only from the rendered list's buttons.

## Findings

| source | as written | input that shows it | evidently intended | confidence | as-written member | corrected member |
|---|---|---|---|---|---|---|
| frontend/src/App.jsx:208-213 | after the current file is removed, `selectFile(newIndex)` reads the list from before the removal. When that file was not the last one, the editor keeps the removed file's name and code, but the current index names the file that followed it | files `a.js`, `b.js`; `a.js` current; remove `a.js` | the editor shows `b.js`, the new current file | high; not executed | FileList.StaleRemovalShowsRemovedFile | FileList.Workspace.Remove |
| frontend/src/App.jsx:184-187 | the auto-select after an upload calls `selectFile(uploadedFiles.length)` with the list from before the upload. That index is never below the old length, so nothing is ever selected | no file current; upload one valid file | the first new file becomes current and fills the editor | high; not executed | FileList.StaleAutoSelectNeverFires | FileList.Workspace.Upload |

=== FILE: eslint_analyzer.dfy ===
/** The processing that `analyzeJS` (analyzer/eslintAnalyzer.js) performs around
    its ESLint call: turning lint messages into issues, choosing the fixed text,
    declaring assignments to undefined names, the fallback for a failed lint run,
    and the two suggestion classifiers.

    The ESLint engine itself is not modelled: its answer is a `LintOutcome`
    value handed in by the caller. */
module EslintAnalyzer {
  import opened Text
  import opened Issues

  // ===========================================================================
  // The abstract lint engine

  /** One ESLint message: 1-based line, numeric severity (2 is an error), text and rule id. */
  datatype LintMessage = LintMessage(line: nat, severity: int, message: string, ruleId: Option<string>)

  /** What the engine returns: messages and, in fix mode, possibly a repaired text;
      or the message of the error it threw. */
  datatype LintOutcome =
    | Linted(messages: seq<LintMessage>, output: Option<string>)
    | Crashed(error: string)

  // ===========================================================================
  // generateSuggestion: the rule catalog

  const DefaultSuggestion: string := "Follow ESLint best practices to fix this issue"

  const RuleCatalog: map<string, string> := map[
    "no-unused-vars" := "Remove unused variables or use them in your code",
    "no-undef" := "Define the variable or import it from a module",
    "no-console" := "Consider using a proper logging library in production",
    "semi" := "Add semicolons at the end of statements",
    "quotes" := "Use consistent quote style for strings",
    "indent" := "Fix indentation to be consistent",
    "no-trailing-spaces" := "Remove extra spaces at the end of lines",
    "eol-last" := "Add a newline at the end of the file",
    "no-multiple-empty-lines" := "Remove extra empty lines",
    "brace-style" := "Use consistent brace style",
    "comma-dangle" := "Remove or add trailing commas consistently",
    "no-var" := "Use let or const instead of var",
    "prefer-const" := "Use const for variables that are never reassigned",
    "no-unreachable" := "Remove code that can never be executed",
    "no-redeclare" := "Avoid redeclaring the same variable",
    "no-duplicate-keys" := "Remove duplicate object keys",
    "no-dupe-args" := "Remove duplicate function parameters",
    "no-func-assign" := "Avoid reassigning function declarations",
    "no-irregular-whitespace" := "Remove irregular whitespace characters",
    "no-obj-calls" := "Do not call global objects as functions",
    "no-sparse-arrays" := "Avoid sparse arrays with empty slots",
    "use-isnan" := "Use isNaN() to check for NaN values",
    "valid-typeof" := "Ensure typeof expressions are compared to valid strings"
  ]

  /** The suggestion for a lint message: the catalog entry of its rule, else the
      default. The message text plays no part; a missing rule id (`null`) is
      never in the catalog. */
  function GenerateSuggestion(ruleId: Option<string>, message: string): (r: string)
    ensures ruleId.Some? && ruleId.value in RuleCatalog ==> r == RuleCatalog[ruleId.value]
    ensures ruleId.None? || ruleId.value !in RuleCatalog ==> r == DefaultSuggestion
    ensures r != ""
  {
    match ruleId
    case Some(id) => if id in RuleCatalog then RuleCatalog[id] else DefaultSuggestion
    case None => DefaultSuggestion
  }

  lemma NoVarSuggestion(message: string)
    ensures GenerateSuggestion(Some("no-var"), message) == "Use let or const instead of var"
    ensures GenerateSuggestion(Some("no-undef"), message) == "Define the variable or import it from a module"
    ensures GenerateSuggestion(Some("prefer-const"), message) == "Use const for variables that are never reassigned"
  {
  }

  // ===========================================================================
  // getSyntaxErrorSuggestion: an ordered phrase classifier

  const OpeningBraceHint := "Check for missing opening brace or extra closing brace"
  const ClosingBraceHint := "Check for missing closing brace or unexpected opening brace"
  const OpeningParenHint := "Check for missing opening parenthesis or extra closing parenthesis"
  const ClosingParenHint := "Check for missing closing parenthesis or unexpected opening parenthesis"
  const OpeningBracketHint := "Check for missing opening bracket or extra closing bracket"
  const ClosingBracketHint := "Check for missing closing bracket or unexpected opening bracket"
  const TypoHint := "Check for typos or missing punctuation in your code"
  const StringHint := "Add missing closing quote for the string"
  const CommentHint := "Add missing closing comment marker */"
  const InvalidCharHint := "Remove or replace invalid characters in your code"
  const GenericSyntaxHint := "Check for syntax errors like missing brackets, quotes, or semicolons"

  /** The hints the `unexpected token` branch can produce. */
  const TokenHints: set<string> := {OpeningBraceHint, ClosingBraceHint, OpeningParenHint,
    ClosingParenHint, OpeningBracketHint, ClosingBracketHint, TypoHint}

  /** Inside the `unexpected token` branch: the first bracket character found, in
      the fixed order `}`, `{`, `)`, `(`, `]`, `[`, decides. */
  function TokenHint(lower: string): string
  {
    if Contains(lower, "}") then OpeningBraceHint
    else if Contains(lower, "{") then ClosingBraceHint
    else if Contains(lower, ")") then OpeningParenHint
    else if Contains(lower, "(") then ClosingParenHint
    else if Contains(lower, "]") then OpeningBracketHint
    else if Contains(lower, "[") then ClosingBracketHint
    else TypoHint
  }

  /** The suggestion for the text of a parser error, matched case-insensitively:
      `unexpected token` beats `unterminated string`, which beats
      `unterminated comment`, which beats `invalid character`. */
  function SyntaxErrorSuggestion(errorMessage: string): (r: string)
    ensures var l := ToLower(errorMessage);
      && (r in TokenHints <==> Contains(l, "unexpected token"))
      && (r == StringHint <==> !Contains(l, "unexpected token") && Contains(l, "unterminated string"))
      && (r == CommentHint <==>
            !Contains(l, "unexpected token") && !Contains(l, "unterminated string")
            && Contains(l, "unterminated comment"))
      && (r == InvalidCharHint <==>
            !Contains(l, "unexpected token") && !Contains(l, "unterminated string")
            && !Contains(l, "unterminated comment") && Contains(l, "invalid character"))
      && (r == GenericSyntaxHint <==>
            !Contains(l, "unexpected token") && !Contains(l, "unterminated string")
            && !Contains(l, "unterminated comment") && !Contains(l, "invalid character"))
  {
    var lower := ToLower(errorMessage);
    if Contains(lower, "unexpected token") then TokenHint(lower)
    else if Contains(lower, "unterminated string") then StringHint
    else if Contains(lower, "unterminated comment") then CommentHint
    else if Contains(lower, "invalid character") then InvalidCharHint
    else GenericSyntaxHint
  }

  /** The same classifier written as an ordered list of (phrase, hint) rules,
      the first rule whose phrase occurs deciding. */
  function FirstMatch(rules: seq<(string, string)>, text: string, fallback: string): string
  {
    if |rules| == 0 then fallback
    else if Contains(text, rules[0].0) then rules[0].1
    else FirstMatch(rules[1..], text, fallback)
  }

  const BracketRules: seq<(string, string)> := [("}", OpeningBraceHint), ("{", ClosingBraceHint),
    (")", OpeningParenHint), ("(", ClosingParenHint), ("]", OpeningBracketHint), ("[", ClosingBracketHint)]

  const PhraseRules: seq<(string, string)> := [("unterminated string", StringHint),
    ("unterminated comment", CommentHint), ("invalid character", InvalidCharHint)]

  function RuleTableSuggestion(errorMessage: string): string
  {
    var lower := ToLower(errorMessage);
    if Contains(lower, "unexpected token") then FirstMatch(BracketRules, lower, TypoHint)
    else FirstMatch(PhraseRules, lower, GenericSyntaxHint)
  }

  /** The if-chain and the priority table agree on every message. */
  lemma SyntaxSuggestionIsRuleTable(errorMessage: string)
    ensures SyntaxErrorSuggestion(errorMessage) == RuleTableSuggestion(errorMessage)
  {
    var l := ToLower(errorMessage);
    var b := BracketRules;
    assert b[5..][1..] == [];
    assert FirstMatch(b[5..], l, TypoHint) == (if Contains(l, "[") then ClosingBracketHint else TypoHint);
    assert b[4..][1..] == b[5..];
    assert FirstMatch(b[4..], l, TypoHint) == (if Contains(l, "]") then OpeningBracketHint else FirstMatch(b[5..], l, TypoHint));
    assert b[3..][1..] == b[4..];
    assert FirstMatch(b[3..], l, TypoHint) == (if Contains(l, "(") then ClosingParenHint else FirstMatch(b[4..], l, TypoHint));
    assert b[2..][1..] == b[3..];
    assert FirstMatch(b[2..], l, TypoHint) == (if Contains(l, ")") then OpeningParenHint else FirstMatch(b[3..], l, TypoHint));
    assert b[1..][1..] == b[2..];
    assert FirstMatch(b[1..], l, TypoHint) == (if Contains(l, "{") then ClosingBraceHint else FirstMatch(b[2..], l, TypoHint));
    assert FirstMatch(b, l, TypoHint) == TokenHint(l);
    var q := PhraseRules;
    assert q[2..][1..] == [];
    assert FirstMatch(q[2..], l, GenericSyntaxHint) == (if Contains(l, "invalid character") then InvalidCharHint else GenericSyntaxHint);
    assert q[1..][1..] == q[2..];
    assert FirstMatch(q[1..], l, GenericSyntaxHint) ==
      (if Contains(l, "unterminated comment") then CommentHint else FirstMatch(q[2..], l, GenericSyntaxHint));
  }

  lemma UnexpectedClosingBrace()
    ensures SyntaxErrorSuggestion("Unexpected token }") == OpeningBraceHint
  {
    var l := ToLower("Unexpected token }");
    assert l == "unexpected token }";
    assert OccursAt(l, "unexpected token", 0);
    assert OccursAt(l, "}", 17);
  }

  // ===========================================================================
  // The line number of a failed lint run: /line (\d+)/i

  /** Case-insensitive `line ` followed by a digit starts at `i`. */
  predicate LineRefAt(m: string, i: nat)
  {
    i + 6 <= |m| && ToLower(m[i..i + 5]) == "line " && IsDigit(m[i + 5])
  }

  function FindLineRef(m: string, i: nat): (r: Option<nat>)
    ensures r.Some? ==> i <= r.value && LineRefAt(m, r.value)
                        && forall j: nat :: i <= j < r.value ==> !LineRefAt(m, j)
    ensures r.None? ==> forall j: nat :: i <= j ==> !LineRefAt(m, j)
    decreases |m| - i
  {
    if i + 6 > |m| then None
    else if LineRefAt(m, i) then Some(i)
    else FindLineRef(m, i + 1)
  }

  /** The number after the first `line <digits>` in the error text, else 1. */
  function ExtractLine(m: string): (r: nat)
    ensures (forall i: nat :: !LineRefAt(m, i)) ==> r == 1
    ensures forall i: nat :: LineRefAt(m, i) && (forall j: nat :: j < i ==> !LineRefAt(m, j))
              ==> r == DecimalValue(LeadingDigits(m[i + 5..]))
  {
    match FindLineRef(m, 0)
    case None => 1
    case Some(i) => DecimalValue(LeadingDigits(m[i + 5..]))
  }

  /** Any capitalisation of `line`, a space and a numeral give back that number. */
  lemma {:induction false} LineNumberRoundTrip(word: string, n: nat, rest: string)
    requires |word| == 4 && ToLower(word) == "line"
    requires |rest| == 0 || !IsDigit(rest[0])
    ensures ExtractLine(word + " " + ShowNat(n) + rest) == n
  {
    var m := word + " " + ShowNat(n) + rest;
    assert m[..5] == word + " ";
    assert m[0..5] == m[..5];
    assert ToLower(m[0..5]) == "line ";
    assert m[5] == ShowNat(n)[0];
    assert LineRefAt(m, 0);
    assert m[5..] == ShowNat(n) + rest;
    LeadingDigitsOf(ShowNat(n), rest);
    DecimalShow(n);
  }

  // ===========================================================================
  // applyCustomFixes: declaring assignments to undefined names

  const NotDefinedTail := "' is not defined"

  /** The match of /'([^']+)' is not defined/ starting at position `i`: a quote,
      the run of non-quote characters up to the next quote (at least one), and
      the rest of the phrase. */
  function QuotedNameAt(m: string, i: nat): (r: Option<string>)
    ensures r.Some? ==> i < |m| && m[i] == '\'' && |r.value| > 0 && '\'' !in r.value
                        && OccursAt(m, "'" + r.value + NotDefinedTail, i)
  {
    if i < |m| && m[i] == '\'' then
      var j := IndexFrom(m, "'", i + 1);
      if j > i + 1 && StartsWith(m[j..], NotDefinedTail) then
        var name := m[i + 1..j];
        assert '\'' !in name by {
          forall k | 0 <= k < |name| ensures name[k] != '\'' {
            assert !OccursAt(m, "'", i + 1 + k);
            assert m[i + 1 + k..i + 2 + k] == [m[i + 1 + k]];
          }
        }
        assert m[i..i + |"'" + name + NotDefinedTail|] == "'" + name + NotDefinedTail by {
          assert m[i..j] == "'" + name;
          assert m[j..j + |NotDefinedTail|] == NotDefinedTail;
        }
        Some(name)
      else None
    else None
  }

  /** The capture of the leftmost match at or after position `i`. */
  function UndefinedNameFrom(m: string, i: nat): (r: Option<string>)
    ensures r.None? ==> forall k: nat :: i <= k ==> QuotedNameAt(m, k).None?
    ensures r.Some? ==> |r.value| > 0 && '\'' !in r.value && Contains(m, "'" + r.value + NotDefinedTail)
    decreases |m| - i
  {
    if i >= |m| then None
    else if QuotedNameAt(m, i).Some? then
      ContainsAt(m, "'" + QuotedNameAt(m, i).value + NotDefinedTail, i);
      QuotedNameAt(m, i)
    else UndefinedNameFrom(m, i + 1)
  }

  /** The name captured by the leftmost match of /'([^']+)' is not defined/. */
  function UndefinedName(m: string): (r: Option<string>)
    ensures r.Some? ==> |r.value| > 0 && '\'' !in r.value && Contains(m, "'" + r.value + NotDefinedTail)
    ensures r.None? ==> forall k: nat :: QuotedNameAt(m, k).None?
  {
    UndefinedNameFrom(m, 0)
  }

  lemma {:induction false} UndefinedNameFromLeftmost(m: string, i: nat, k: nat)
    requires i <= k && QuotedNameAt(m, k).Some?
    requires forall j: nat :: i <= j < k ==> QuotedNameAt(m, j).None?
    ensures UndefinedNameFrom(m, i) == QuotedNameAt(m, k)
    decreases k - i
  {
    if i < k {
      UndefinedNameFromLeftmost(m, i + 1, k);
    }
  }

  /** The name is the capture of the leftmost match: when the first match
      starts at `k`, the name is the one quoted there. */
  lemma UndefinedNameLeftmost(m: string, k: nat)
    requires QuotedNameAt(m, k).Some?
    requires forall j: nat :: j < k ==> QuotedNameAt(m, j).None?
    ensures UndefinedName(m) == QuotedNameAt(m, k)
  {
    UndefinedNameFromLeftmost(m, 0, k);
  }

  /** With two names in one message, the first is taken. */
  lemma FirstOfTwoNames()
    ensures UndefinedName("'a' is not defined, 'b' is not defined") == Some("a")
  {
    var m := "'a' is not defined, 'b' is not defined";
    assert m == "'" + "a" + NotDefinedTail + ", 'b' is not defined";
    UndefinedNameLeading("a", ", 'b' is not defined");
  }

  /** After a quote at `i`, the next quote is the one that closes a quote-free `x`. */
  lemma NextQuote(m: string, i: nat, x: string)
    requires '\'' !in x
    requires i + 1 + |x| < |m| && m[i + 1..i + 1 + |x|] == x && m[i + 1 + |x|] == '\''
    ensures IndexFrom(m, "'", i + 1) == i + 1 + |x|
  {
    var j := i + 1 + |x|;
    forall k: nat | i + 1 <= k < j ensures !OccursAt(m, "'", k) {
      assert m[k] == x[k - i - 1];
      assert m[k..k + 1] == [m[k]];
    }
    assert m[j..j + 1] == "'";
    assert OccursAt(m, "'", j);
  }

  /** At a position where `'x' is not defined` occurs, the match captures `x`. */
  lemma QuotedNameAtMatch(m: string, i: nat, x: string)
    requires |x| > 0 && '\'' !in x
    requires OccursAt(m, "'" + x + NotDefinedTail, i)
    ensures QuotedNameAt(m, i) == Some(x)
  {
    var w := "'" + x + NotDefinedTail;
    var j := i + 1 + |x|;
    assert m[i] == '\'' && m[i + 1..j] == x && m[j] == '\'' by {
      assert m[i..i + |w|] == w;
      assert m[i] == w[0];
      assert w[1..1 + |x|] == x;
      assert forall k :: 0 <= k < |x| ==> m[i + 1 + k] == w[1 + k] == x[k];
      assert m[j] == w[1 + |x|];
    }
    NextQuote(m, i, x);
    assert StartsWith(m[j..], NotDefinedTail) by {
      assert m[i..i + |w|] == w;
      assert m[j..][..|NotDefinedTail|] == w[1 + |x|..];
    }
  }

  /** Whenever the message names a quote-free `'x' is not defined`, a name is extracted. */
  lemma UndefinedNameFound(m: string, x: string)
    requires |x| > 0 && '\'' !in x
    requires Contains(m, "'" + x + NotDefinedTail)
    ensures UndefinedName(m).Some?
  {
    QuotedNameAtMatch(m, IndexOf(m, "'" + x + NotDefinedTail), x);
  }

  /** A message that opens with `'x' is not defined` yields exactly `x`. */
  lemma UndefinedNameLeading(x: string, rest: string)
    requires |x| > 0 && '\'' !in x
    ensures UndefinedName("'" + x + NotDefinedTail + rest) == Some(x)
  {
    var m := "'" + x + NotDefinedTail + rest;
    assert m[0..|"'" + x + NotDefinedTail|] == "'" + x + NotDefinedTail;
    QuotedNameAtMatch(m, 0, x);
  }

  lemma TotalIsNotDefined()
    ensures UndefinedName("'total' is not defined.") == Some("total")
  {
    assert "'total' is not defined." == "'" + "total" + NotDefinedTail + ".";
    UndefinedNameLeading("total", ".");
  }

  // ---------------------------------------------------------------------------
  // The rewrite for one name.
  //
  // The source replaces /^(\s*)(NAME\s*=)/gm by `$1let $2`. For a name made of
  // identifier characters this inserts `let ` before every occurrence of NAME
  // that (a) is preceded, back to the start of its line, only by whitespace,
  // and (b) is followed by optional whitespace and `=`. The function below
  // walks the text once with a flag `indent` that records (a); `^` matches at
  // the text start and after `\n` or `\r`, which is what resets the flag.
  // The function compares NAME literally. That agrees with the source only
  // for names over [A-Za-z0-9_]: the source splices the name into the
  // pattern unescaped, so a character such as `$` or `.` there acts as a
  // pattern operator (`$el` can never match, since `$` is an anchor).

  /** `\s*=` at the front of `t`. */
  predicate AssignFollows(t: string)
  {
    |t| > 0 && (t[0] == '=' || (IsWhitespace(t[0]) && AssignFollows(t[1..])))
  }

  /** `NAME\s*=` at the front of `t`. */
  predicate AssignmentAt(t: string, name: string)
  {
    StartsWith(t, name) && AssignFollows(t[|name|..])
  }

  function NextIndent(indent: bool, c: char): bool
  {
    IsLineTerminator(c) || (indent && IsWhitespace(c))
  }

  function DeclareAssignments(s: string, name: string, indent: bool): string
    decreases |s|
  {
    if |s| == 0 then ""
    else if indent && |name| > 0 && AssignmentAt(s, name) then
      "let " + name + DeclareAssignments(s[|name|..], name, false)
    else [s[0]] + DeclareAssignments(s[1..], name, NextIndent(indent, s[0]))
  }

  /** No undeclared line-initial assignment to `name` is left in `s`. */
  predicate Clean(s: string, name: string, indent: bool)
    decreases |s|
  {
    |s| == 0 || (!(indent && AssignmentAt(s, name)) && Clean(s[1..], name, NextIndent(indent, s[0])))
  }

  predicate NoLineTerminator(x: string)
  {
    forall i :: 0 <= i < |x| ==> !IsLineTerminator(x[i])
  }

  lemma {:induction false} DeclareSkips(x: string, y: string, name: string)
    requires NoLineTerminator(x)
    ensures DeclareAssignments(x + y, name, false) == x + DeclareAssignments(y, name, false)
  {
    if |x| > 0 {
      assert (x + y)[1..] == x[1..] + y;
      DeclareSkips(x[1..], y, name);
      assert [x[0]] + (x[1..] + DeclareAssignments(y, name, false)) == x + DeclareAssignments(y, name, false);
    } else {
      assert x + y == y;
    }
  }

  lemma {:induction false} CleanSkips(x: string, y: string, name: string)
    requires NoLineTerminator(x)
    ensures Clean(x + y, name, false) <==> Clean(y, name, false)
  {
    if |x| > 0 {
      assert (x + y)[1..] == x[1..] + y;
      CleanSkips(x[1..], y, name);
    } else {
      assert x + y == y;
    }
  }

  /** A line-initial assignment can never start right at an inserted `let `. */
  lemma NoAssignmentAtLet(name: string, p: string, x: string)
    requires IsIdentifier(name) && IsIdentifier(p)
    ensures !AssignmentAt("let " + name + x, p)
  {
    var t := "let " + name + x;
    if |p| >= 4 {
      if |p| <= |t| {
        assert t[..|p|][3] != p[3];
      }
    } else if |p| == 3 {
      assert t[3..][1..] == name + x;
      assert (name + x)[0] == name[0];
      assert !AssignFollows(t[3..]);
    } else {
      assert t[|p|..][0] == t[|p|] == "let "[|p|];
      assert !AssignFollows(t[|p|..]);
    }
  }

  /** The rewrite never creates `P\s*=` (P a possibly empty run of identifier
      characters) at the front of the text. */
  lemma {:induction false} AssignmentReflected(s: string, name: string, p: string, indent: bool)
    requires IsIdentifier(name)
    requires forall i :: 0 <= i < |p| ==> IsIdentChar(p[i])
    requires AssignmentAt(DeclareAssignments(s, name, indent), p)
    ensures AssignmentAt(s, p)
    decreases |s|
  {
    var r := DeclareAssignments(s, name, indent);
    if |s| == 0 {
      assert false;
    } else if indent && AssignmentAt(s, name) {
      if |p| == 0 {
        assert false;
      } else {
        NoAssignmentAtLet(name, p, DeclareAssignments(s[|name|..], name, false));
        assert false;
      }
    } else {
      var r1 := DeclareAssignments(s[1..], name, NextIndent(indent, s[0]));
      assert r == [s[0]] + r1;
      if |p| > 0 {
        assert r[0] == p[0];
        assert r1[..|p| - 1] == p[1..];
        assert r1[|p| - 1..] == r[|p|..];
        AssignmentReflected(s[1..], name, p[1..], NextIndent(indent, s[0]));
        assert s[1..][..|p| - 1] == p[1..];
        assert s[..|p|] == [s[0]] + s[1..][..|p| - 1];
        assert s[1..][|p| - 1..] == s[|p|..];
      } else {
        assert r[1..] == r1;
        if r[0] != '=' {
          AssignmentReflected(s[1..], name, p, NextIndent(indent, s[0]));
        }
      }
    }
  }

  /** A `let ` written in front of a line-initial assignment leaves no
      line-initial assignment there, and the rest stays as clean as it was. */
  lemma LetKeepsClean(name: string, other: string, rest: string)
    requires IsIdentifier(name) && IsIdentifier(other) && Clean(rest, other, false)
    ensures Clean("let " + name + rest, other, true)
  {
    var r := "let " + name + rest;
    var u := ("et " + name) + rest;
    NoAssignmentAtLet(name, other, rest);
    assert r == ['l'] + u by {
      assert "let " == ['l'] + "et ";
      assert forall k :: 0 <= k < |r| ==> r[k] == (['l'] + u)[k];
    }
    assert r[1..] == u;
    CleanSkips("et " + name, rest, other);
  }

  /** Rewriting for `name` leaves the text clean for `name`, and keeps it clean
      for any other identifier it was already clean for. */
  lemma {:induction false} DeclareLeavesClean(s: string, name: string, other: string, indent: bool)
    requires IsIdentifier(name) && IsIdentifier(other)
    requires other == name || Clean(s, other, indent)
    ensures Clean(DeclareAssignments(s, name, indent), other, indent)
    decreases |s|
  {
    if |s| == 0 {
    } else if indent && AssignmentAt(s, name) {
      var t := s[|name|..];
      assert s == name + t;
      if other != name {
        CleanSkips(name[1..], t, other);
        assert s[1..] == name[1..] + t;
        assert NextIndent(indent, s[0]) == false;
      }
      DeclareLeavesClean(t, name, other, false);
      LetKeepsClean(name, other, DeclareAssignments(t, name, false));
    } else {
      var b := NextIndent(indent, s[0]);
      DeclareLeavesClean(s[1..], name, other, b);
      var r := DeclareAssignments(s, name, indent);
      assert r == [s[0]] + DeclareAssignments(s[1..], name, b);
      assert r[1..] == DeclareAssignments(s[1..], name, b);
      if indent && AssignmentAt(r, other) {
        AssignmentReflected(s, name, other, indent);
      }
    }
  }

  /** A text that is already clean is left alone. */
  lemma {:induction false} CleanIsFixed(s: string, name: string, indent: bool)
    requires |name| > 0 && Clean(s, name, indent)
    ensures DeclareAssignments(s, name, indent) == s
    decreases |s|
  {
    if |s| > 0 {
      CleanIsFixed(s[1..], name, NextIndent(indent, s[0]));
      assert [s[0]] + s[1..] == s;
    }
  }

  // ---------------------------------------------------------------------------
  // Only text is added

  /** `a` can be obtained from `b` by deleting characters. */
  predicate Subsequence(a: string, b: string)
    decreases |b|
  {
    |a| == 0 || (|b| > 0 && ((a[0] == b[0] && Subsequence(a[1..], b[1..])) || Subsequence(a, b[1..])))
  }

  lemma {:induction false} SubsequenceTrans(a: string, b: string, c: string)
    requires Subsequence(a, b) && Subsequence(b, c)
    ensures Subsequence(a, c)
    decreases |c|
  {
    if |a| > 0 {
      if Subsequence(b, c[1..]) {
        SubsequenceTrans(a, b, c[1..]);
      } else if a[0] == b[0] && Subsequence(a[1..], b[1..]) {
        SubsequenceTrans(a[1..], b[1..], c[1..]);
      } else {
        SubsequenceTrans(a, b[1..], c[1..]);
      }
    }
  }

  lemma {:induction false} SubsequencePrefix(a: string, b: string, x: string)
    requires Subsequence(a, b)
    ensures Subsequence(a, x + b)
    decreases |x|
  {
    if |x| > 0 && |a| > 0 {
      SubsequencePrefix(a, b, x[1..]);
      assert (x + b)[1..] == x[1..] + b;
    } else if |x| == 0 {
      assert x + b == b;
    }
  }

  lemma {:induction false} SubsequenceSame(x: string, a: string, b: string)
    requires Subsequence(a, b)
    ensures Subsequence(x + a, x + b)
    decreases |x|
  {
    if |x| > 0 {
      SubsequenceSame(x[1..], a, b);
      assert (x + a)[1..] == x[1..] + a;
      assert (x + b)[1..] == x[1..] + b;
    } else {
      assert x + a == a && x + b == b;
    }
  }

  lemma {:induction false} SubsequenceRefl(a: string)
    ensures Subsequence(a, a)
  {
    if |a| > 0 {
      SubsequenceRefl(a[1..]);
    }
  }

  /** The rewrite only inserts text: the input survives as a subsequence, the
      growth is a multiple of four and no line is added. For an identifier,
      from a line start, it writes `let ` exactly before the line-initial
      assignments to it and changes nothing else. */
  lemma DeclareOnlyInserts(s: string, name: string, indent: bool)
    ensures Inserted(s, DeclareAssignments(s, name, indent))
    ensures indent && IsIdentifier(name) ==>
      DeclareAssignments(s, name, indent) == InsertLets(s, LetSites(s, name), 0)
  {
    DeclareKeepsText(s, name, indent);
    DeclareGrowth(s, name, indent);
    DeclareKeepsNewlines(s, name, indent);
    if indent && IsIdentifier(name) {
      InsertLetsNone(s);
      DeclareSpliced(s, {}, name, 0);
      assert {} + LetSites(s, name) == LetSites(s, name);
    }
  }

  lemma {:induction false} DeclareKeepsText(s: string, name: string, indent: bool)
    ensures Subsequence(s, DeclareAssignments(s, name, indent))
    decreases |s|
  {
    if |s| == 0 {
    } else if indent && |name| > 0 && AssignmentAt(s, name) {
      var t := s[|name|..];
      var rt := DeclareAssignments(t, name, false);
      DeclareKeepsText(t, name, false);
      assert s == name + t;
      SubsequenceSame(name, t, rt);
      SubsequencePrefix(s, name + rt, "let ");
      assert DeclareAssignments(s, name, indent) == "let " + (name + rt);
    } else {
      var rt := DeclareAssignments(s[1..], name, NextIndent(indent, s[0]));
      DeclareKeepsText(s[1..], name, NextIndent(indent, s[0]));
      SubsequenceSame([s[0]], s[1..], rt);
      assert [s[0]] + s[1..] == s;
    }
  }

  lemma {:induction false} DeclareGrowth(s: string, name: string, indent: bool)
    ensures var r := DeclareAssignments(s, name, indent);
      |r| >= |s| && (|r| - |s|) % 4 == 0
    decreases |s|
  {
    if |s| == 0 {
    } else if indent && |name| > 0 && AssignmentAt(s, name) {
      var t := s[|name|..];
      DeclareGrowth(t, name, false);
      MultipleOfFour(|s|, |s| + 4, |DeclareAssignments(s, name, indent)|);
    } else {
      DeclareGrowth(s[1..], name, NextIndent(indent, s[0]));
    }
  }

  lemma {:induction false} DeclareKeepsNewlines(s: string, name: string, indent: bool)
    ensures Count(DeclareAssignments(s, name, indent), '\n') == Count(s, '\n')
    decreases |s|
  {
    if |s| == 0 {
    } else if indent && |name| > 0 && AssignmentAt(s, name) {
      var t := s[|name|..];
      var rt := DeclareAssignments(t, name, false);
      assert DeclareAssignments(s, name, indent) == "let " + (name + rt);
      assert s == name + t;
      DeclareKeepsNewlines(t, name, false);
      CountAbsent("let ", '\n');
      CountConcat("let ", name + rt, '\n');
      CountConcat(name, rt, '\n');
      CountConcat(name, t, '\n');
    } else {
      var rt := DeclareAssignments(s[1..], name, NextIndent(indent, s[0]));
      assert DeclareAssignments(s, name, indent) == [s[0]] + rt;
      assert [s[0]] + s[1..] == s;
      DeclareKeepsNewlines(s[1..], name, NextIndent(indent, s[0]));
      CountConcat([s[0]], rt, '\n');
      CountConcat([s[0]], s[1..], '\n');
    }
  }

  predicate AllWhitespace(w: string)
  {
    forall i :: 0 <= i < |w| ==> IsWhitespace(w[i])
  }

  /** An indented assignment on the first line gets `let ` after its indentation. */
  lemma DeclareIndented(w: string, name: string, tail: string)
    requires AllWhitespace(w) && NoLineTerminator(w)
    requires IsIdentifier(name) && AssignFollows(tail) && NoLineTerminator(tail)
    ensures DeclareAssignments(w + name + tail, name, true) == w + "let " + name + tail
  {
    DeclarePastIndents(w, name + tail, name);
    DeclareAtLineStart(name, tail);
    assert w + name + tail == w + (name + tail);
    assert w + "let " + name + tail == w + ("let " + name + tail);
  }

  /** Indentation at a line start is copied and keeps the line start open. */
  lemma {:induction false} DeclarePastIndents(w: string, rest: string, name: string)
    requires AllWhitespace(w) && NoLineTerminator(w) && IsIdentifier(name)
    ensures DeclareAssignments(w + rest, name, true) == w + DeclareAssignments(rest, name, true)
    decreases |w|
  {
    if |w| == 0 {
      assert w + rest == rest;
      assert w + DeclareAssignments(rest, name, true) == DeclareAssignments(rest, name, true);
    } else {
      FirstSplit(w, rest);
      FirstSplit(w, DeclareAssignments(rest, name, true));
      DeclarePastIndent(w[0], w[1..] + rest, name);
      DeclarePastIndents(w[1..], rest, name);
    }
  }

  lemma FirstSplit(w: string, y: string)
    requires |w| > 0
    ensures w + y == [w[0]] + (w[1..] + y)
  {
  }

  /** An assignment at a line start gets `let `; the rest of its line is kept. */
  lemma DeclareAtLineStart(name: string, tail: string)
    requires IsIdentifier(name) && AssignFollows(tail) && NoLineTerminator(tail)
    ensures DeclareAssignments(name + tail, name, true) == "let " + name + tail
  {
    var s := name + tail;
    assert s[..|name|] == name && s[|name|..] == tail;
    DeclareSkips(tail, "", name);
    assert tail + "" == tail;
  }

  /** Indentation before the name is copied and keeps the line start open. */
  lemma DeclarePastIndent(c: char, rest: string, name: string)
    requires IsWhitespace(c) && !IsLineTerminator(c) && IsIdentifier(name)
    ensures DeclareAssignments([c] + rest, name, true) == [c] + DeclareAssignments(rest, name, true)
  {
    var s := [c] + rest;
    assert !AssignmentAt(s, name) by {
      if |name| <= |s| {
        assert s[..|name|][0] == c;
      }
    }
    assert s[1..] == rest;
  }

  lemma IndentedAssignmentDeclared()
    ensures DeclareAssignments("  total = 0;", "total", true) == "  let total = 0;"
  {
    var w, name, tail := "  ", "total", " = 0;";
    assert w + name + tail == "  total = 0;" by { SampleLine(); }
    assert w + "let " + name + tail == "  let total = 0;" by { SampleLine(); }
    assert AssignFollows(tail) by { assert tail[1..] == "= 0;"; }
    DeclareIndented(w, name, tail);
  }

  /** The sample line and its declared form, in pieces. */
  lemma SampleLine()
    ensures "  " + "total" + " = 0;" == "  total = 0;"
    ensures "  " + "let " + "total" + " = 0;" == "  let total = 0;"
  {
  }

  // ---------------------------------------------------------------------------
  // Where `let ` goes, stated on positions of the input

  /** `^\s*` (multiline) can end at position `p`: `p` starts a line, or follows
      a whitespace character at which such a run can end. */
  predicate LineInitial(s: string, p: nat)
    requires p <= |s|
  {
    p == 0 || IsLineTerminator(s[p - 1]) || (IsWhitespace(s[p - 1]) && LineInitial(s, p - 1))
  }

  /** The positions where the replacement of `^(\s*)(NAME\s*=)` puts `let `:
      the line-initial occurrences of `NAME\s*=`. */
  function LetSites(s: string, name: string): set<nat>
  {
    set p: nat | p < |s| && LineInitial(s, p) && AssignmentAt(s[p..], name)
  }

  /** Every position is a line-initial identifier character. */
  predicate SiteSet(s: string, sites: set<nat>)
  {
    forall p :: p in sites ==> p < |s| && LineInitial(s, p) && IsIdentChar(s[p])
  }

  /** `s` from position `i` on, with `let ` written before each position in `sites`. */
  function InsertLets(s: string, sites: set<nat>, i: nat): string
    decreases |s| - i
  {
    if i >= |s| then "" else (if i in sites then "let " else "") + [s[i]] + InsertLets(s, sites, i + 1)
  }

  lemma LetSitesAreSites(s: string, name: string)
    requires IsIdentifier(name)
    ensures SiteSet(s, LetSites(s, name))
  {
    forall p | p in LetSites(s, name) ensures p < |s| && LineInitial(s, p) && IsIdentChar(s[p]) {
      assert AssignmentAt(s[p..], name);
      assert s[p] == s[p..][..|name|][0] == name[0];
    }
  }

  lemma {:induction false} InsertLetsSkip(s: string, sites: set<nat>, i: nat, j: nat)
    requires i <= j <= |s|
    requires forall k: nat :: i <= k < j ==> k !in sites
    ensures InsertLets(s, sites, i) == s[i..j] + InsertLets(s, sites, j)
    decreases j - i
  {
    if i < j {
      var x := InsertLets(s, sites, j);
      var m := s[i + 1..j];
      calc {
        InsertLets(s, sites, i);
      == { assert i !in sites; }
        [s[i]] + InsertLets(s, sites, i + 1);
      == { InsertLetsSkip(s, sites, i + 1, j); }
        [s[i]] + (m + x);
      ==
        ([s[i]] + m) + x;
      == { assert s[i..j] == [s[i]] + m; }
        s[i..j] + x;
      }
    } else {
      assert s[i..j] == [];
    }
  }

  /** `P\s*=` at the front of `[c] + t`, for a non-empty `P`. */
  lemma AssignmentAtCons(c: char, t: string, p: string)
    requires |p| > 0
    ensures AssignmentAt([c] + t, p) <==> c == p[0] && AssignmentAt(t, p[1..])
  {
    var u := [c] + t;
    if |p| <= |u| {
      assert u[..|p|] == [c] + t[..|p| - 1];
      assert u[|p|..] == t[|p| - 1..];
    }
  }

  /** `\s*=` at the front of `[c] + t`. */
  lemma AssignFollowsCons(c: char, t: string)
    ensures AssignFollows([c] + t) <==> c == '=' || (IsWhitespace(c) && AssignFollows(t))
  {
    assert ([c] + t)[1..] == t;
  }

  /** A `P\s*=` at the front of the spliced text (P a possibly empty run of
      identifier characters) was already at that place in the input, where no
      `let ` went. */
  lemma {:induction false} SpliceReflects(s: string, sites: set<nat>, i: nat, p: string)
    requires SiteSet(s, sites) && i <= |s|
    requires forall k :: 0 <= k < |p| ==> IsIdentChar(p[k])
    requires AssignmentAt(InsertLets(s, sites, i), p)
    ensures i !in sites && AssignmentAt(s[i..], p)
    decreases |s| - i
  {
    var rest := InsertLets(s, sites, i + 1);
    if i in sites {
      assert InsertLets(s, sites, i) == "let " + [s[i]] + rest;
      if |p| > 0 {
        NoAssignmentAtLet([s[i]], p, rest);
      }
      assert false;
    }
    assert InsertLets(s, sites, i) == [s[i]] + rest;
    assert s[i..] == [s[i]] + s[i + 1..];
    if |p| > 0 {
      AssignmentAtCons(s[i], rest, p);
      SpliceReflects(s, sites, i + 1, p[1..]);
      AssignmentAtCons(s[i], s[i + 1..], p);
    } else {
      AssignFollowsCons(s[i], rest);
      if s[i] != '=' {
        SpliceReflects(s, sites, i + 1, p);
      }
      AssignFollowsCons(s[i], s[i + 1..]);
    }
  }

  /** A `\s*=` at a position of the input where no `let ` goes survives at the
      front of the spliced text. */
  lemma {:induction false} SpliceKeepsFollows(s: string, sites: set<nat>, i: nat)
    requires SiteSet(s, sites) && i <= |s| && i !in sites
    requires AssignFollows(s[i..])
    ensures AssignFollows(InsertLets(s, sites, i))
    decreases |s| - i
  {
    var rest := InsertLets(s, sites, i + 1);
    assert InsertLets(s, sites, i) == [s[i]] + rest;
    assert s[i..] == [s[i]] + s[i + 1..];
    AssignFollowsCons(s[i], s[i + 1..]);
    if s[i] != '=' {
      assert s[i + 1] == s[i + 1..][0];
      SpliceKeepsFollows(s, sites, i + 1);
    }
    AssignFollowsCons(s[i], rest);
  }

  /** A `P\s*=` at a position of the input where no `let ` goes survives at
      the front of the spliced text. */
  lemma {:induction false} SpliceKeeps(s: string, sites: set<nat>, i: nat, p: string)
    requires SiteSet(s, sites) && i <= |s| && i !in sites
    requires forall k :: 0 <= k < |p| ==> IsIdentChar(p[k])
    requires AssignmentAt(s[i..], p)
    ensures AssignmentAt(InsertLets(s, sites, i), p)
    decreases |p|
  {
    if |p| == 0 {
      SpliceKeepsFollows(s, sites, i);
    } else {
      var rest := InsertLets(s, sites, i + 1);
      assert InsertLets(s, sites, i) == [s[i]] + rest;
      assert s[i..] == [s[i]] + s[i + 1..];
      AssignmentAtCons(s[i], s[i + 1..], p);
      SpliceKeeps(s, sites, i + 1, p[1..]);
      AssignmentAtCons(s[i], rest, p);
    }
  }

  /** The claim of `DeclareSpliced` at position `i`. */
  predicate SplicedFrom(s: string, sites: set<nat>, name: string, i: nat)
    requires i <= |s|
  {
    DeclareAssignments(InsertLets(s, sites, i), name, LineInitial(s, i))
      == InsertLets(s, sites + LetSites(s, name), i)
  }

  /** The rewrite copies a `let ` it meets, and the identifier character after it. */
  lemma DeclareAtLet(c: char, rest: string, name: string, b: bool)
    requires IsIdentChar(c) && IsIdentifier(name)
    ensures DeclareAssignments(("let " + [c]) + rest, name, b) == ("let " + [c]) + DeclareAssignments(rest, name, false)
  {
    var t := ("let " + [c]) + rest;
    NoAssignmentAtLet([c], name, rest);
    assert t[1..] == "et " + [c] + rest;
    DeclareSkips("et " + [c], rest, name);
    assert [t[0]] + (("et " + [c]) + DeclareAssignments(rest, name, false))
        == ("let " + [c]) + DeclareAssignments(rest, name, false);
  }

  /** At a position where `let ` was spliced in, the rewrite finds no
      assignment and copies `let ` and the character after it. */
  lemma SplicedLet(s: string, sites: set<nat>, name: string, i: nat)
    requires SiteSet(s, sites) && IsIdentifier(name) && i in sites
    requires SplicedFrom(s, sites, name, i + 1)
    ensures SplicedFrom(s, sites, name, i)
  {
    var all := sites + LetSites(s, name);
    assert i in all;
    assert InsertLets(s, sites, i) == ("let " + [s[i]]) + InsertLets(s, sites, i + 1);
    assert InsertLets(s, all, i) == ("let " + [s[i]]) + InsertLets(s, all, i + 1);
    assert !LineInitial(s, i + 1);
    DeclareAtLet(s[i], InsertLets(s, sites, i + 1), name, LineInitial(s, i));
  }

  /** No position inside an identifier, nor the one just past it, is line-initial. */
  lemma InsideName(s: string, name: string, i: nat)
    requires IsIdentifier(name) && i + |name| <= |s| && s[i..i + |name|] == name
    ensures forall k: nat :: i < k <= i + |name| ==> !LineInitial(s, k)
  {
    forall k: nat | i < k <= i + |name| ensures !LineInitial(s, k) {
      assert s[k - 1] == s[i..i + |name|][k - 1 - i];
    }
  }

  /** A line-initial assignment to `name` lies within the text. */
  lemma SiteInText(s: string, name: string, i: nat)
    requires IsIdentifier(name) && i <= |s| && AssignmentAt(s[i..], name)
    ensures i + |name| <= |s| && s[i..i + |name|] == name
  {
    assert s[i..i + |name|] == s[i..][..|name|];
  }

  /** A `let ` at `i` and none up to `j`: the splice writes `let ` and copies the text between. */
  lemma SpliceAcross(s: string, sites: set<nat>, i: nat, j: nat)
    requires i < j <= |s| && i in sites
    requires forall k: nat :: i < k < j ==> k !in sites
    ensures InsertLets(s, sites, i) == "let " + s[i..j] + InsertLets(s, sites, j)
  {
    var x := InsertLets(s, sites, j);
    var m := s[i + 1..j];
    assert InsertLets(s, sites, i) == ("let " + [s[i]]) + InsertLets(s, sites, i + 1);
    InsertLetsSkip(s, sites, i + 1, j);
    assert s[i..j] == [s[i]] + m;
    assert ("let " + [s[i]]) + (m + x) == "let " + ([s[i]] + m) + x;
  }

  /** The rewrite at a line-initial assignment to `name`. */
  lemma DeclareAtAssignment(name: string, rest: string)
    requires IsIdentifier(name) && AssignmentAt(name + rest, name)
    ensures DeclareAssignments(name + rest, name, true) == "let " + name + DeclareAssignments(rest, name, false)
  {
    assert (name + rest)[|name|..] == rest;
  }

  /** At a line-initial assignment to `name` where no `let ` was spliced in,
      the rewrite and the splice both put `let ` before the name. */
  lemma SplicedSite(s: string, sites: set<nat>, name: string, i: nat)
    requires SiteSet(s, sites) && IsIdentifier(name) && i <= |s| && i !in sites
    requires LineInitial(s, i) && AssignmentAt(s[i..], name)
    requires i + |name| <= |s| && SplicedFrom(s, sites, name, i + |name|)
    ensures SplicedFrom(s, sites, name, i)
  {
    var all := sites + LetSites(s, name);
    var j := i + |name|;
    SiteInText(s, name, i);
    InsideName(s, name, i);
    assert forall k: nat :: i < k < j ==> k !in all;
    assert i in all;
    SpliceAcross(s, all, i, j);
    InsertLetsSkip(s, sites, i, j);
    SpliceKeeps(s, sites, i, name);
    DeclareAtAssignment(name, InsertLets(s, sites, j));
  }

  /** Anywhere else the rewrite copies the character and moves on. */
  lemma SplicedOther(s: string, sites: set<nat>, name: string, i: nat)
    requires SiteSet(s, sites) && IsIdentifier(name) && i < |s| && i !in sites
    requires !(LineInitial(s, i) && AssignmentAt(s[i..], name))
    requires SplicedFrom(s, sites, name, i + 1)
    ensures SplicedFrom(s, sites, name, i)
  {
    var t := InsertLets(s, sites, i);
    assert t == [s[i]] + InsertLets(s, sites, i + 1);
    if LineInitial(s, i) && AssignmentAt(t, name) {
      SpliceReflects(s, sites, i, name);
      assert false;
    }
    assert i !in sites + LetSites(s, name);
  }

  /** Where the rewrite resumes after position `i`: past the name at one of
      its sites, else at the next character. */
  function Resume(s: string, sites: set<nat>, name: string, i: nat): (k: nat)
    requires IsIdentifier(name) && i < |s|
    ensures i < k <= |s|
  {
    if i !in sites && LineInitial(s, i) && AssignmentAt(s[i..], name) then
      SiteInText(s, name, i);
      i + |name|
    else i + 1
  }

  /** One step of `DeclareSpliced`, by the kind of position `i` is. */
  lemma SplicedStep(s: string, sites: set<nat>, name: string, i: nat)
    requires SiteSet(s, sites) && IsIdentifier(name) && i < |s|
    requires SplicedFrom(s, sites, name, Resume(s, sites, name, i))
    ensures SplicedFrom(s, sites, name, i)
  {
    if i in sites {
      SplicedLet(s, sites, name, i);
    } else if LineInitial(s, i) && AssignmentAt(s[i..], name) {
      SplicedSite(s, sites, name, i);
    } else {
      SplicedOther(s, sites, name, i);
    }
  }

  /** Running the rewrite for `name` over a text into which `let ` was already
      spliced at line-initial identifier positions splices `let ` in at the
      name's own sites as well, counting each position once. */
  lemma {:induction false} DeclareSpliced(s: string, sites: set<nat>, name: string, i: nat)
    requires SiteSet(s, sites) && IsIdentifier(name) && i <= |s|
    ensures SplicedFrom(s, sites, name, i)
    decreases |s| - i
  {
    if i == |s| {
    } else {
      DeclareSpliced(s, sites, name, Resume(s, sites, name, i));
      SplicedStep(s, sites, name, i);
    }
  }

  lemma InsertLetsNone(s: string)
    ensures InsertLets(s, {}, 0) == s
  {
    InsertLetsSkip(s, {}, 0, |s|);
  }

  // ---------------------------------------------------------------------------
  // The loop over the undefined-name issues

  /** `issues.filter(issue => issue.message.includes('is not defined'))` */
  function UndefinedIssues(issues: seq<Issue>): (r: seq<Issue>)
    ensures |r| <= |issues|
    ensures forall k :: 0 <= k < |r| ==> r[k] in issues && Contains(r[k].message, "is not defined")
    ensures forall k :: 0 <= k < |issues| && Contains(issues[k].message, "is not defined") ==> issues[k] in r
  {
    if |issues| == 0 then []
    else
      var rest := UndefinedIssues(issues[1..]);
      assert forall k :: 1 <= k < |issues| ==> issues[k] == issues[1..][k - 1];
      if Contains(issues[0].message, "is not defined") then [issues[0]] + rest else rest
  }

  /** The filter distributes over concatenation, so it keeps the order of the
      issues and each one exactly once: it is the concatenation of its
      verdicts on single issues. */
  lemma {:induction false} UndefinedIssuesConcat(a: seq<Issue>, b: seq<Issue>)
    ensures UndefinedIssues(a + b) == UndefinedIssues(a) + UndefinedIssues(b)
    decreases |a|
  {
    if |a| == 0 {
      assert a + b == b;
    } else {
      assert (a + b)[0] == a[0];
      assert (a + b)[1..] == a[1..] + b;
      UndefinedIssuesConcat(a[1..], b);
    }
  }

  /** On one issue the filter keeps it exactly when its message contains
      `is not defined`. */
  lemma UndefinedIssuesOne(i: Issue)
    ensures Contains(i.message, "is not defined") ==> UndefinedIssues([i]) == [i]
    ensures !Contains(i.message, "is not defined") ==> UndefinedIssues([i]) == []
  {
    assert [i][1..] == [];
  }

  /** One round of the loop body. */
  function FixForIssue(code: string, issue: Issue): string
  {
    match UndefinedName(issue.message)
    case Some(name) => DeclareAssignments(code, name, true)
    case None => code
  }

  /** The loop's effect after the given issues, in order. */
  function FixesFor(code: string, issues: seq<Issue>): string
  {
    if |issues| == 0 then code else FixForIssue(FixesFor(code, issues[..|issues| - 1]), issues[|issues| - 1])
  }

  /** What `applyCustomFixes(code, issues)` returns. */
  function CustomFixes(code: string, issues: seq<Issue>): string
  {
    FixesFor(code, UndefinedIssues(issues))
  }

  method ApplyCustomFixes(code: string, issues: seq<Issue>) returns (fixedCode: string)
    ensures fixedCode == CustomFixes(code, issues)
  {
    fixedCode := code;
    var undefIssues := UndefinedIssues(issues);
    for k := 0 to |undefIssues|
      invariant fixedCode == FixesFor(code, undefIssues[..k])
    {
      assert undefIssues[..k + 1][..k] == undefIssues[..k];
      var issue := undefIssues[k];
      match UndefinedName(issue.message) {
        case Some(varName) =>
          fixedCode := DeclareAssignments(fixedCode, varName, true);
        case None =>
      }
    }
    assert undefIssues[..|undefIssues|] == undefIssues;
  }

  /** Every name the issues yield is an identifier (what ESLint reports). */
  predicate NamesAreIdentifiers(issues: seq<Issue>)
  {
    forall k :: 0 <= k < |issues| && UndefinedName(issues[k].message).Some?
      ==> IsIdentifier(UndefinedName(issues[k].message).value)
  }

  predicate CleanFor(code: string, issues: seq<Issue>)
  {
    forall k :: 0 <= k < |issues| && UndefinedName(issues[k].message).Some?
      ==> Clean(code, UndefinedName(issues[k].message).value, true)
  }

  /** One round of the loop keeps or makes the text clean for an identifier. */
  lemma FixForIssueClean(code: string, issue: Issue, other: string)
    requires IsIdentifier(other)
    requires UndefinedName(issue.message).Some? ==> IsIdentifier(UndefinedName(issue.message).value)
    requires UndefinedName(issue.message) == Some(other) || Clean(code, other, true)
    ensures Clean(FixForIssue(code, issue), other, true)
  {
    match UndefinedName(issue.message) {
      case Some(name) => DeclareLeavesClean(code, name, other, true);
      case None =>
    }
  }

  lemma {:induction false} FixesLeaveClean(code: string, issues: seq<Issue>)
    requires NamesAreIdentifiers(issues)
    ensures CleanFor(FixesFor(code, issues), issues)
    decreases |issues|
  {
    if |issues| > 0 {
      var n := |issues| - 1;
      var init := issues[..n];
      assert NamesAreIdentifiers(init) by {
        forall k | 0 <= k < |init| ensures init[k] == issues[k] { }
      }
      FixesLeaveClean(code, init);
      var before := FixesFor(code, init);
      assert FixesFor(code, issues) == FixForIssue(before, issues[n]);
      forall k | 0 <= k < |issues| && UndefinedName(issues[k].message).Some?
        ensures Clean(FixesFor(code, issues), UndefinedName(issues[k].message).value, true)
      {
        var other := UndefinedName(issues[k].message).value;
        if k < n {
          assert init[k] == issues[k];
        }
        FixForIssueClean(before, issues[n], other);
      }
    }
  }

  lemma {:induction false} FixesOfCleanText(code: string, issues: seq<Issue>)
    requires CleanFor(code, issues)
    ensures FixesFor(code, issues) == code
    decreases |issues|
  {
    if |issues| > 0 {
      var n := |issues| - 1;
      assert CleanFor(code, issues[..n]) by {
        forall k | 0 <= k < n ensures issues[..n][k] == issues[k] { }
      }
      FixesOfCleanText(code, issues[..n]);
      match UndefinedName(issues[n].message) {
        case Some(name) =>
          CleanIsFixed(code, name, true);
        case None =>
      }
    }
  }

  /** Running the custom fixes again on their own output changes nothing. */
  lemma CustomFixesIdempotent(code: string, issues: seq<Issue>)
    requires NamesAreIdentifiers(UndefinedIssues(issues))
    ensures CustomFixes(CustomFixes(code, issues), issues) == CustomFixes(code, issues)
  {
    var u := UndefinedIssues(issues);
    FixesLeaveClean(code, u);
    FixesOfCleanText(FixesFor(code, u), u);
  }

  /** Issues without an `'X' is not defined` message leave the text as it was. */
  lemma {:induction false} FixesWithoutNames(code: string, issues: seq<Issue>)
    requires forall k :: 0 <= k < |issues| ==> UndefinedName(issues[k].message).None?
    ensures FixesFor(code, issues) == code
    decreases |issues|
  {
    if |issues| > 0 {
      var n := |issues| - 1;
      forall k | 0 <= k < n ensures UndefinedName(issues[..n][k].message).None? {
        assert issues[..n][k] == issues[k];
      }
      FixesWithoutNames(code, issues[..n]);
    }
  }

  lemma {:induction false} NoUndefinedIssues(issues: seq<Issue>)
    requires forall k :: 0 <= k < |issues| ==> !Contains(issues[k].message, "is not defined")
    ensures UndefinedIssues(issues) == []
    decreases |issues|
  {
    if |issues| > 0 {
      forall k | 0 <= k < |issues| - 1 ensures !Contains(issues[1..][k].message, "is not defined") {
        assert issues[1..][k] == issues[k + 1];
      }
      NoUndefinedIssues(issues[1..]);
    }
  }

  /** Without a `not defined` message the text is left as it was. */
  lemma CustomFixesNeedNotDefined(code: string, issues: seq<Issue>)
    requires forall k :: 0 <= k < |issues| ==> !Contains(issues[k].message, "is not defined")
    ensures CustomFixes(code, issues) == code
  {
    NoUndefinedIssues(issues);
  }

  /** `b` is `a` with copies of `let ` inserted: `a` survives as a
      subsequence, the growth is a multiple of four and no line is added. */
  predicate Inserted(a: string, b: string)
  {
    Subsequence(a, b) && |b| >= |a| && (|b| - |a|) % 4 == 0 && Count(b, '\n') == Count(a, '\n')
  }

  /** One round of the loop only inserts text, four characters at a time, and
      no line; for an identifier it writes `let ` exactly before the
      line-initial assignments to it. */
  lemma FixForIssueInserts(code: string, issue: Issue)
    ensures Inserted(code, FixForIssue(code, issue))
    ensures UndefinedName(issue.message).Some? && IsIdentifier(UndefinedName(issue.message).value) ==>
      FixForIssue(code, issue) == InsertLets(code, LetSites(code, UndefinedName(issue.message).value), 0)
  {
    var u := UndefinedName(issue.message);
    if u.Some? {
      assert FixForIssue(code, issue) == DeclareAssignments(code, u.value, true);
      DeclareOnlyInserts(code, u.value, true);
    } else {
      assert FixForIssue(code, issue) == code;
      SubsequenceRefl(code);
    }
  }

  lemma MultipleOfFour(a: int, b: int, c: int)
    requires (b - a) % 4 == 0 && (c - b) % 4 == 0
    ensures (c - a) % 4 == 0
  {
    assert c - a == (b - a) + (c - b);
  }

  /** Two insertions in a row are an insertion. */
  lemma InsertsCompose(a: string, b: string, c: string)
    requires Inserted(a, b) && Inserted(b, c)
    ensures Inserted(a, c)
  {
    SubsequenceTrans(a, b, c);
    MultipleOfFour(|a|, |b|, |c|);
  }

  /** The positions where one round writes `let `: the sites of the name its
      issue yields. */
  function IssueSites(code: string, issue: Issue): set<nat>
  {
    match UndefinedName(issue.message)
    case Some(name) => LetSites(code, name)
    case None => {}
  }

  /** The positions of `code` where the loop over `issues` writes `let `. */
  function FixSites(code: string, issues: seq<Issue>): set<nat>
    decreases |issues|
  {
    if |issues| == 0 then {}
    else FixSites(code, issues[..|issues| - 1]) + IssueSites(code, issues[|issues| - 1])
  }

  /** A position is one of the loop's sites exactly when the issue of some
      round puts it there: the rounds' sites accumulate and none is lost. */
  lemma {:induction false} FixSitesIff(code: string, issues: seq<Issue>, p: nat)
    ensures p in FixSites(code, issues)
        <==> exists k :: 0 <= k < |issues| && p in IssueSites(code, issues[k])
    decreases |issues|
  {
    if |issues| > 0 {
      var n := |issues| - 1;
      var init := issues[..n];
      var last := IssueSites(code, issues[n]);
      assert FixSites(code, issues) == FixSites(code, init) + last;
      FixSitesIff(code, init, p);
      if p in FixSites(code, issues) {
        if p in FixSites(code, init) {
          var k :| 0 <= k < |init| && p in IssueSites(code, init[k]);
          assert init[k] == issues[k];
          assert 0 <= k < |issues| && p in IssueSites(code, issues[k]);
        } else {
          assert 0 <= n < |issues| && p in IssueSites(code, issues[n]);
        }
      } else {
        assert p !in FixSites(code, init) && p !in last;
        forall k | 0 <= k < |issues| ensures p !in IssueSites(code, issues[k]) {
          if k < n {
            assert init[k] == issues[k];
            assert p !in IssueSites(code, init[k]);
          } else {
            assert issues[k] == issues[n];
          }
        }
      }
    }
  }

  lemma {:induction false} FixSitesAreSites(code: string, issues: seq<Issue>)
    requires NamesAreIdentifiers(issues)
    ensures SiteSet(code, FixSites(code, issues))
    decreases |issues|
  {
    if |issues| > 0 {
      var n := |issues| - 1;
      IdentifiersOfPrefix(issues);
      FixSitesAreSites(code, issues[..n]);
      match UndefinedName(issues[n].message) {
        case Some(name) => LetSitesAreSites(code, name);
        case None =>
      }
    }
  }

  lemma IdentifiersOfPrefix(issues: seq<Issue>)
    requires |issues| > 0 && NamesAreIdentifiers(issues)
    ensures NamesAreIdentifiers(issues[..|issues| - 1])
  {
    forall k | 0 <= k < |issues| - 1 ensures issues[..|issues| - 1][k] == issues[k] { }
  }

  /** One more round keeps the loop's result a splice at `FixSites`. */
  lemma FixesStep(code: string, issues: seq<Issue>)
    requires |issues| > 0
    requires SiteSet(code, FixSites(code, issues[..|issues| - 1]))
    requires FixesFor(code, issues[..|issues| - 1]) == InsertLets(code, FixSites(code, issues[..|issues| - 1]), 0)
    requires UndefinedName(issues[|issues| - 1].message).Some? ==>
      IsIdentifier(UndefinedName(issues[|issues| - 1].message).value)
    ensures FixesFor(code, issues) == InsertLets(code, FixSites(code, issues), 0)
  {
    var n := |issues| - 1;
    var sites := FixSites(code, issues[..n]);
    var before := FixesFor(code, issues[..n]);
    assert FixesFor(code, issues) == FixForIssue(before, issues[n]);
    match UndefinedName(issues[n].message) {
      case Some(name) =>
        DeclareSpliced(code, sites, name, 0);
      case None =>
        assert FixSites(code, issues) == sites + {};
        assert sites + {} == sites;
    }
  }

  /** The custom fixes only insert text and add no line. For identifier names
      they write `let ` exactly before every line-initial assignment, in the
      input, to a name the issues yield, and change nothing else. */
  lemma {:induction false} FixesOnlyInsert(code: string, issues: seq<Issue>)
    ensures Inserted(code, FixesFor(code, issues))
    ensures NamesAreIdentifiers(issues) ==> FixesFor(code, issues) == InsertLets(code, FixSites(code, issues), 0)
    decreases |issues|
  {
    if |issues| == 0 {
      SubsequenceRefl(code);
      InsertLetsNone(code);
    } else {
      var n := |issues| - 1;
      var before := FixesFor(code, issues[..n]);
      FixesOnlyInsert(code, issues[..n]);
      FixForIssueInserts(before, issues[n]);
      InsertsCompose(code, before, FixForIssue(before, issues[n]));
      if NamesAreIdentifiers(issues) {
        IdentifiersOfPrefix(issues);
        FixSitesAreSites(code, issues[..n]);
        FixesStep(code, issues);
      }
    }
  }

  // ===========================================================================
  // analyzeJS around the engine

  /** One engine message as an issue: same line and message, `error` exactly
      for severity 2, and the catalog's suggestion for its rule. */
  function ToIssue(m: LintMessage): (r: Issue)
    ensures r.line == m.line && r.message == m.message
    ensures r.severity == Error <==> m.severity == 2
    ensures m.ruleId.Some? && m.ruleId.value in RuleCatalog ==> r.suggestion == RuleCatalog[m.ruleId.value]
    ensures r.suggestion != ""
  {
    Issue(m.line, if m.severity == 2 then Error else Warning, m.message, GenerateSuggestion(m.ruleId, m.message))
  }

  /** `result.output || code`: the engine's text unless it is absent or empty. */
  function BaseText(code: string, output: Option<string>): (r: string)
    ensures output.Some? && output.value != "" ==> r == output.value
    ensures output.None? || output.value == "" ==> r == code
  {
    if output.Some? && output.value != "" then output.value else code
  }

  function AnalyzeJS(code: string, outcome: LintOutcome): (a: Analysis)
    ensures outcome.Linted? ==>
      && |a.issues| == |outcome.messages|
      && (forall k :: 0 <= k < |a.issues| ==>
            var m := outcome.messages[k];
            && a.issues[k].line == m.line
            && (a.issues[k].severity == Error <==> m.severity == 2)
            && a.issues[k].message == m.message
            && a.issues[k].suggestion == GenerateSuggestion(m.ruleId, m.message))
      && a.fixedCode == CustomFixes(BaseText(code, outcome.output), a.issues)
    ensures outcome.Crashed? ==>
      && |a.issues| == 1
      && a.issues[0] == Issue(ExtractLine(outcome.error), Error, outcome.error,
                              SyntaxErrorSuggestion(outcome.error))
      && a.fixedCode == code
  {
    match outcome
    case Linted(messages, output) =>
      var issues := seq(|messages|, k requires 0 <= k < |messages| => ToIssue(messages[k]));
      Analysis(issues, CustomFixes(BaseText(code, output), issues))
    case Crashed(error) =>
      Analysis([Issue(ExtractLine(error), Error, error, SyntaxErrorSuggestion(error))], code)
  }

  /** The pipeline's fixed text keeps the line count of the text it starts from,
      and contains that text as a subsequence. */
  lemma AnalyzeKeepsLines(code: string, outcome: LintOutcome)
    ensures var a := AnalyzeJS(code, outcome);
      var base := if outcome.Linted? then BaseText(code, outcome.output) else code;
      Subsequence(base, a.fixedCode) && Count(a.fixedCode, '\n') == Count(base, '\n')
  {
    var a := AnalyzeJS(code, outcome);
    if outcome.Linted? {
      FixesOnlyInsert(BaseText(code, outcome.output), UndefinedIssues(a.issues));
    } else {
      SubsequenceRefl(code);
    }
  }

  /** An assignment to an undeclared `total` gets declared by the pipeline. */
  lemma UndeclaredTotalGetsLet()
    ensures AnalyzeJS("  total = 0;",
      Linted([LintMessage(1, 2, "'total' is not defined.", Some("no-undef"))], None)).fixedCode
      == "  let total = 0;"
  {
    var msg := "'total' is not defined.";
    assert Contains(msg, "is not defined") by {
      assert msg[8..8 + |"is not defined"|] == "is not defined";
      ContainsAt(msg, "is not defined", 8);
    }
    TotalIsNotDefined();
    IndentedAssignmentDeclared();
    OneUndefinedName("  total = 0;", LintMessage(1, 2, msg, Some("no-undef")), "total");
  }

  /** A run with one message that names an undefined variable, and no engine
      output, declares that variable's line-initial assignments. */
  lemma OneUndefinedName(code: string, m: LintMessage, name: string)
    requires Contains(m.message, "is not defined") && UndefinedName(m.message) == Some(name)
    ensures AnalyzeJS(code, Linted([m], None)).fixedCode == DeclareAssignments(code, name, true)
  {
    var a := AnalyzeJS(code, Linted([m], None));
    assert a.issues == [ToIssue(m)];
    assert UndefinedIssues(a.issues) == a.issues;
    assert FixesFor(code, a.issues) == FixForIssue(code, ToIssue(m)) by {
      assert a.issues[..0] == [];
    }
  }
}

=== FILE: file_list.dfy ===
/** The front end's list of uploaded files: which files an upload accepts,
    and how the list and the index of the current file change when a file is
    selected, removed, stepped to, or the list is cleared. */
module FileList {
  import opened Text

  /** A file the user picked: its name, its size in bytes and its text. */
  datatype LocalFile = LocalFile(name: string, size: nat, text: string)

  /** A file in the list once read. */
  datatype FileEntry = FileEntry(name: string, content: string, size: nat, analyzed: bool)

  const MaxFileSize: nat := 1024 * 1024
  const DefaultFilename: string := "example.js"
  const NoValidFilesError: string := "No valid JavaScript files found"

  // ===========================================================================
  // Upload acceptance

  predicate IsScriptName(name: string)
  {
    EndsWith(name, ".js") || EndsWith(name, ".jsx")
  }

  predicate Acceptable(f: LocalFile)
  {
    IsScriptName(f.name) && f.size <= MaxFileSize
  }

  /** The complaint about a file, if any: the name check comes before the size check. */
  function Rejection(f: LocalFile): (r: Option<string>)
    ensures r.None? <==> Acceptable(f)
    ensures r.Some? ==> StartsWith(r.value, f.name)
    ensures r.Some? && !IsScriptName(f.name) ==> r.value == f.name + ": Not a JavaScript file"
    ensures r.Some? && IsScriptName(f.name) ==> r.value == f.name + ": File too large (max 1MB)"
  {
    if !IsScriptName(f.name) then Some(f.name + ": Not a JavaScript file")
    else if f.size > MaxFileSize then Some(f.name + ": File too large (max 1MB)")
    else None
  }

  /** The accepted files of a batch, in order. */
  function AcceptedFiles(batch: seq<LocalFile>): (r: seq<LocalFile>)
    ensures |r| <= |batch|
    ensures forall f :: f in r ==> f in batch && Acceptable(f)
  {
    if |batch| == 0 then []
    else
      var last := batch[|batch| - 1];
      AcceptedFiles(batch[..|batch| - 1]) + (if Acceptable(last) then [last] else [])
  }

  /** One complaint per rejected file, in order. */
  function Rejections(batch: seq<LocalFile>): (r: seq<string>)
    ensures |r| <= |batch|
    ensures |r| == 0 <==> forall i :: 0 <= i < |batch| ==> Acceptable(batch[i])
  {
    if |batch| == 0 then []
    else
      var last := batch[|batch| - 1];
      Rejections(batch[..|batch| - 1]) + Complaints(last)
  }

  /** The complaint about one file, as a list of at most one message. */
  function Complaints(f: LocalFile): seq<string>
  {
    match Rejection(f)
    case Some(e) => [e]
    case None => []
  }

  /** Complaining distributes over concatenation: the complaints keep the
      batch order, one per rejected file. */
  lemma {:induction false} RejectionsConcat(a: seq<LocalFile>, b: seq<LocalFile>)
    ensures Rejections(a + b) == Rejections(a) + Rejections(b)
    decreases |b|
  {
    if |b| == 0 {
      assert a + b == a;
    } else {
      var init := b[..|b| - 1];
      var last := b[|b| - 1];
      calc {
        Rejections(a + b);
      == { assert (a + b)[..|a + b| - 1] == a + init; assert (a + b)[|a + b| - 1] == last; }
        Rejections(a + init) + Complaints(last);
      == { RejectionsConcat(a, init); }
        (Rejections(a) + Rejections(init)) + Complaints(last);
      ==
        Rejections(a) + (Rejections(init) + Complaints(last));
      ==
        Rejections(a) + Rejections(b);
      }
    }
  }

  /** On one file: no complaint for an acceptable file, else its complaint. */
  lemma RejectionsOne(f: LocalFile)
    ensures Rejections([f]) == if Acceptable(f) then [] else [Rejection(f).value]
  {
    assert [f][..0] == [];
  }

  /** Accepting distributes over concatenation, keeping the batch order. */
  lemma {:induction false} AcceptedFilesConcat(a: seq<LocalFile>, b: seq<LocalFile>)
    ensures AcceptedFiles(a + b) == AcceptedFiles(a) + AcceptedFiles(b)
    decreases |b|
  {
    if |b| == 0 {
      assert a + b == a;
    } else {
      var init := b[..|b| - 1];
      var last := b[|b| - 1];
      assert (a + b)[..|a + b| - 1] == a + init;
      assert (a + b)[|a + b| - 1] == last;
      AcceptedFilesConcat(a, init);
    }
  }

  /** On one file: the file when it is acceptable, else nothing. */
  lemma AcceptedFilesOne(f: LocalFile)
    ensures AcceptedFiles([f]) == if Acceptable(f) then [f] else []
  {
    assert [f][..0] == [];
  }

  /** The source's `forEach` over the batch, sorting files into the valid ones
      and the complaints. */
  method ValidateUploads(batch: seq<LocalFile>) returns (valid: seq<LocalFile>, errors: seq<string>)
    ensures valid == AcceptedFiles(batch)
    ensures errors == Rejections(batch)
  {
    valid, errors := [], [];
    for i := 0 to |batch|
      invariant valid == AcceptedFiles(batch[..i])
      invariant errors == Rejections(batch[..i])
    {
      var file := batch[i];
      assert batch[..i + 1][..i] == batch[..i];
      if !EndsWith(file.name, ".js") && !EndsWith(file.name, ".jsx") {
        errors := errors + [file.name + ": Not a JavaScript file"];
        continue;
      }
      if file.size > 1024 * 1024 {
        errors := errors + [file.name + ": File too large (max 1MB)"];
        continue;
      }
      valid := valid + [file];
    }
    assert batch[..|batch|] == batch;
  }

  /** A file of the batch is accepted exactly when it is acceptable. */
  lemma {:induction false} AcceptedIff(batch: seq<LocalFile>, f: LocalFile)
    ensures f in AcceptedFiles(batch) <==> f in batch && Acceptable(f)
  {
    if |batch| > 0 {
      var init := batch[..|batch| - 1];
      AcceptedIff(init, f);
      assert batch == init + [batch[|batch| - 1]];
    }
  }

  /** Every file is either accepted or complained about, never both. */
  lemma {:induction false} EveryFileSorted(batch: seq<LocalFile>)
    ensures |AcceptedFiles(batch)| + |Rejections(batch)| == |batch|
  {
    if |batch| > 0 {
      EveryFileSorted(batch[..|batch| - 1]);
    }
  }

  /** Without a complaint the whole batch is accepted, in its order. */
  lemma {:induction false} NoRejectionAcceptsAll(batch: seq<LocalFile>)
    requires |Rejections(batch)| == 0
    ensures AcceptedFiles(batch) == batch
  {
    if |batch| > 0 {
      var init, last := batch[..|batch| - 1], batch[|batch| - 1];
      assert Rejections(batch) == Rejections(init) + Complaints(last);
      assert Rejection(last).None?;
      NoRejectionAcceptsAll(init);
      assert AcceptedFiles(batch) == AcceptedFiles(init) + [last];
      assert batch == init + [last];
    }
  }

  function Loaded(f: LocalFile): FileEntry
  {
    FileEntry(f.name, f.text, f.size, false)
  }

  /** The entries an upload adds, one per file, in order. */
  function LoadAll(files: seq<LocalFile>): seq<FileEntry>
  {
    seq(|files|, i requires 0 <= i < |files| => Loaded(files[i]))
  }

  // ===========================================================================
  // Removal and navigation, on values

  /** `filter((_, i) => i !== index)`. */
  function RemoveAt(files: seq<FileEntry>, index: nat): (r: seq<FileEntry>)
    requires index < |files|
    ensures |r| == |files| - 1
    ensures forall i :: 0 <= i < index ==> r[i] == files[i]
    ensures forall i :: index <= i < |r| ==> r[i] == files[i + 1]
  {
    files[..index] + files[index + 1..]
  }

  /** The current index after removing the file at `index` from a list of
      `length` files. */
  function CurrentAfterRemove(current: int, index: nat, length: nat): (r: int)
    ensures -1 <= current < length && index < length ==> -1 <= r < length - 1
    ensures -1 <= current < length && index < length ==>
      (r == -1 <==> current == -1 || (current == index && length == 1))
  {
    if index == current then
      (if length - 1 > 0 then (if index >= length - 1 then length - 2 else index) else -1)
    else if index < current then current - 1
    else current
  }

  /** Removing another file keeps the same file current, and the index in range. */
  lemma RemoveKeepsCurrentFile(files: seq<FileEntry>, current: int, index: nat)
    requires -1 <= current < |files| && index < |files| && index != current
    ensures var c := CurrentAfterRemove(current, index, |files|);
      && -1 <= c < |files| - 1
      && (current == -1 <==> c == -1)
      && (current >= 0 ==> RemoveAt(files, index)[c] == files[current])
  {
  }

  /** Removing the current file hands over to the file that followed it, or to
      the new last file when it was last, or to nothing when it was alone. */
  lemma RemoveCurrentHandsOver(files: seq<FileEntry>, index: nat)
    requires index < |files|
    ensures var c := CurrentAfterRemove(index, index, |files|);
      && -1 <= c < |files| - 1
      && (c == -1 <==> |files| == 1)
      && (index + 1 < |files| ==> c == index && RemoveAt(files, index)[c] == files[index + 1])
      && (index + 1 == |files| && |files| > 1 ==> c == index - 1 && RemoveAt(files, index)[c] == files[index - 1])
  {
  }

  function Max(a: int, b: int): int { if a < b then b else a }
  function Min(a: int, b: int): int { if a < b then a else b }

  // ===========================================================================
  // Two calls of `selectFile` as written

  /** `selectFile` acts only on an index of the list it reads. */
  predicate Selects(length: nat, index: int)
  {
    0 <= index < length
  }

  /** As written, the auto-select after an upload passes the index of the
      first new file, but `selectFile` still reads the list from before the
      upload, so its bounds check is against the old length. */
  predicate StaleAutoSelectFires(oldLength: nat, current: int, added: nat)
  {
    current == -1 && added > 0 && Selects(oldLength, oldLength)
  }

  /** The stale auto-select never selects anything, while the index it passes
      is an index of the list after the upload. This restates the bounds test
      of `selectFile` (frontend/src/App.jsx:194) at the stale length; it is a
      statement of the finding, not a proof that needs work. */
  lemma StaleAutoSelectNeverFires(oldLength: nat, added: nat)
    requires added > 0
    ensures !StaleAutoSelectFires(oldLength, -1, added)
    ensures Selects(oldLength + added, oldLength)
  {
  }

  /** As written, removing the current file calls `selectFile` with the new
      index while `selectFile` still reads the list from before the removal:
      the editor is filled from the old list at the new index. */
  function StaleRemovalShown(oldFiles: seq<FileEntry>, index: nat): (f: FileEntry)
    requires index < |oldFiles| && |oldFiles| > 1
    ensures f in oldFiles
  {
    var newLength := |oldFiles| - 1;
    var newIndex := if index >= newLength then newLength - 1 else index;
    oldFiles[newIndex]
  }

  /** Removing the current file when it is not the last one leaves the editor
      showing the removed file, while the current index names the file that
      followed it. */
  lemma StaleRemovalShowsRemovedFile(oldFiles: seq<FileEntry>, index: nat)
    requires index + 1 < |oldFiles|
    ensures StaleRemovalShown(oldFiles, index) == oldFiles[index]
    ensures RemoveAt(oldFiles, index)[CurrentAfterRemove(index, index, |oldFiles|)] == oldFiles[index + 1]
  {
  }

  /** Two files, the first current and removed: the editor keeps the first. */
  lemma StaleRemovalExample()
    ensures var a := FileEntry("a.js", "let a = 1;", 10, false);
            var b := FileEntry("b.js", "let b = 2;", 10, false);
            && StaleRemovalShown([a, b], 0) == a
            && RemoveAt([a, b], 0) == [b]
            && CurrentAfterRemove(0, 0, 2) == 0
  {
    var a := FileEntry("a.js", "let a = 1;", 10, false);
    var b := FileEntry("b.js", "let b = 2;", 10, false);
    assert RemoveAt([a, b], 0) == [b];
  }

  // ===========================================================================
  // The workspace

  class Workspace {
    var files: seq<FileEntry>
    var current: int
    var filename: string
    var code: string
    var error: Option<string>

    /** The current index names a file of the list, or is -1. */
    ghost predicate Valid()
      reads this
    {
      -1 <= current < |files|
    }

    /** The editor shows the current file. */
    ghost predicate Shows()
      reads this
    {
      Valid() && (current >= 0 ==> filename == files[current].name && code == files[current].content)
    }

    constructor()
      ensures files == [] && current == -1 && filename == DefaultFilename && code == "" && error == None
      ensures Shows()
    {
      files := [];
      current := -1;
      filename := DefaultFilename;
      code := "";
      error := None;
    }

    /** `selectFile`: indices outside the list are ignored. */
    method Select(index: int)
      requires Valid()
      modifies this
      ensures files == old(files) && error == old(error)
      ensures 0 <= index < |files| ==>
        current == index && filename == files[index].name && code == files[index].content
      ensures !(0 <= index < |files|) ==>
        current == old(current) && filename == old(filename) && code == old(code)
      ensures Valid()
      ensures old(Shows()) ==> Shows()
    {
      if index >= 0 && index < |files| {
        var file := files[index];
        current := index;
        filename := file.name;
        code := file.content;
      }
    }

    /** `handleMultipleFileUpload`: all or nothing. A single complaint rejects
        the batch; otherwise the files are appended, unread and unanalyzed, and
        the first of them is selected when no file was current. */
    method Upload(batch: seq<LocalFile>)
      requires Valid()
      modifies this
      ensures |Rejections(batch)| > 0 ==>
        files == old(files) && current == old(current) && filename == old(filename) && code == old(code)
        && error == Some(Join(Rejections(batch), ", "))
      ensures |batch| == 0 ==>
        files == old(files) && current == old(current) && filename == old(filename) && code == old(code)
        && error == Some(NoValidFilesError)
      ensures |batch| > 0 && |Rejections(batch)| == 0 ==>
        files == old(files) + LoadAll(batch) && error == None
        && (old(current) == -1 ==>
              current == |old(files)| && filename == files[current].name && code == files[current].content)
        && (old(current) != -1 ==> current == old(current) && filename == old(filename) && code == old(code))
      ensures Valid()
      ensures old(Shows()) ==> Shows()
    {
      var valid, errors := ValidateUploads(batch);
      if |errors| > 0 {
        error := Some(Join(errors, ", "));
        return;
      }
      if |valid| == 0 {
        EveryFileSorted(batch);
        error := Some(NoValidFilesError);
        return;
      }
      error := None;
      NoRejectionAcceptsAll(batch);
      var firstNew := |files|;
      files := files + LoadAll(valid);
      if current == -1 {
        Select(firstNew);
      }
    }

    /** `removeFile`, for an index of the list. */
    method Remove(index: nat)
      requires Valid() && index < |files|
      modifies this
      ensures files == RemoveAt(old(files), index)
      ensures current == CurrentAfterRemove(old(current), index, |old(files)|)
      ensures error == old(error)
      ensures index == old(current) && |files| > 0 ==>
        filename == files[current].name && code == files[current].content
      ensures index == old(current) && |files| == 0 ==> filename == DefaultFilename && code == ""
      ensures index != old(current) ==> filename == old(filename) && code == old(code)
      ensures Valid()
      ensures old(Shows()) ==> Shows()
    {
      var newFiles := RemoveAt(files, index);
      var oldFiles := files;
      files := newFiles;
      if index == current {
        if |newFiles| > 0 {
          var newIndex := if index >= |newFiles| then |newFiles| - 1 else index;
          current := newIndex;
          Select(newIndex);
        } else {
          current := -1;
          filename := DefaultFilename;
          code := "";
        }
      } else if index < current {
        current := current - 1;
        RemoveKeepsCurrentFile(oldFiles, current + 1, index);
      } else {
        RemoveKeepsCurrentFile(oldFiles, current, index);
      }
    }

    /** The Previous button: shown with two files or more, enabled past the first. */
    method Previous()
      requires Valid()
      modifies this
      ensures files == old(files) && error == old(error)
      ensures |files| > 1 && old(current) > 0 ==>
        current == old(current) - 1 && filename == files[current].name && code == files[current].content
      ensures !(|files| > 1 && old(current) > 0) ==>
        current == old(current) && filename == old(filename) && code == old(code)
      ensures Valid()
      ensures old(Shows()) ==> Shows()
    {
      if |files| > 1 && current > 0 {
        Select(Max(0, current - 1));
      }
    }

    /** The Next button: shown with two files or more, enabled before the last. */
    method Next()
      requires Valid()
      modifies this
      ensures files == old(files) && error == old(error)
      ensures |files| > 1 && old(current) < |files| - 1 ==>
        current == old(current) + 1 && filename == files[current].name && code == files[current].content
      ensures !(|files| > 1 && old(current) < |files| - 1) ==>
        current == old(current) && filename == old(filename) && code == old(code)
      ensures Valid()
      ensures old(Shows()) ==> Shows()
    {
      if |files| > 1 && current < |files| - 1 {
        Select(Min(|files| - 1, current + 1));
      }
    }

    /** `clearAllFiles`. */
    method ClearAll()
      modifies this
      ensures files == [] && current == -1 && filename == DefaultFilename && code == "" && error == None
      ensures Shows()
    {
      files := [];
      current := -1;
      filename := DefaultFilename;
      code := "";
      error := None;
    }
  }
}

=== FILE: issues.dfy ===
/** The issue record that every analyzer in the system produces: a line number,
    a two-tier severity, the raw message and a one-line suggestion. */
module Issues {

  datatype Severity = Error | Warning

  datatype Issue = Issue(line: nat, severity: Severity, message: string, suggestion: string)

  /** What an analyzer returns: the issues found and the repaired text (`fixed_code`). */
  datatype Analysis = Analysis(issues: seq<Issue>, fixedCode: string)

  /** How many issues carry the given severity (`issues.filter(...).length`). */
  function CountSeverity(issues: seq<Issue>, s: Severity): (n: nat)
    ensures n <= |issues|
  {
    if |issues| == 0 then 0
    else (if issues[0].severity == s then 1 else 0) + CountSeverity(issues[1..], s)
  }

  /** Counting distributes over concatenation. */
  lemma {:induction false} CountSeverityConcat(a: seq<Issue>, b: seq<Issue>, s: Severity)
    ensures CountSeverity(a + b, s) == CountSeverity(a, s) + CountSeverity(b, s)
    decreases |a|
  {
    if |a| == 0 {
      assert a + b == b;
    } else {
      assert (a + b)[1..] == a[1..] + b;
      CountSeverityConcat(a[1..], b, s);
    }
  }

  /** Every issue is an error or a warning, so the two counts add up to the
      number of issues. */
  lemma {:induction false} CountSeverityTotal(issues: seq<Issue>)
    ensures CountSeverity(issues, Error) + CountSeverity(issues, Warning) == |issues|
    decreases |issues|
  {
    if |issues| > 0 {
      CountSeverityTotal(issues[1..]);
    }
  }

  /** The count is zero exactly when no issue has the severity. */
  lemma {:induction false} CountSeverityZero(issues: seq<Issue>, s: Severity)
    ensures CountSeverity(issues, s) == 0 <==> forall i :: 0 <= i < |issues| ==> issues[i].severity != s
    decreases |issues|
  {
    if |issues| > 0 {
      CountSeverityZero(issues[1..], s);
      if CountSeverity(issues, s) == 0 {
        forall i | 0 <= i < |issues| ensures issues[i].severity != s {
          if i > 0 {
            assert issues[i] == issues[1..][i - 1];
          }
        }
      } else if issues[0].severity != s {
        var j :| 0 <= j < |issues[1..]| && issues[1..][j].severity == s;
        assert issues[j + 1].severity == s;
      }
    }
  }
}

=== FILE: lesson.dfy ===
/** `generateLesson`: the short educational text shown next to an analysis.
    server.js and api/analyze.js carry two copies of the same function text;
    both are this one definition.

    The lesson is a fixed text when there are no issues; otherwise a four-line
    template whose header counts errors (or, when there are none, warnings)
    and whose focus area is the first keyword category any lowercased issue
    message matches. */
module Lesson {
  import opened Text
  import opened Issues

  const ExcellentLesson: string :=
    "Code Quality Check: Excellent!\n"
    + "\U{2022} Your code follows JavaScript best practices with no issues detected\n"
    + "\U{2022} All syntax and style guidelines are properly followed\n"
    + "\U{2022} Keep writing clean, maintainable code like this"

  // ===========================================================================
  // The focus area

  /** The five focus areas, in priority order. */
  datatype Focus = Declarations | Consistency | Cleanliness | Definitions | Quality

  /** Some lowercased issue message contains `keyword` (`commonRules.some(...)`). */
  predicate Mentions(issues: seq<Issue>, keyword: string)
  {
    exists i :: 0 <= i < |issues| && Contains(ToLower(issues[i].message), keyword)
  }

  /** The first category, in priority order, whose keywords some message contains. */
  function FocusOf(issues: seq<Issue>): Focus
  {
    if Mentions(issues, "var") then Declarations
    else if Mentions(issues, "semicolon") || Mentions(issues, "semi") then Consistency
    else if Mentions(issues, "unused") then Cleanliness
    else if Mentions(issues, "undefined") || Mentions(issues, "undef") then Definitions
    else Quality
  }

  /** The same choice written as an ordered table of keyword groups, the
      first group some message mentions deciding. */
  const FocusRules: seq<(Focus, seq<string>)> := [
    (Declarations, ["var"]), (Consistency, ["semicolon", "semi"]),
    (Cleanliness, ["unused"]), (Definitions, ["undefined", "undef"])]

  predicate MentionsAny(issues: seq<Issue>, keywords: seq<string>)
  {
    exists k :: 0 <= k < |keywords| && Mentions(issues, keywords[k])
  }

  function FirstFocus(rules: seq<(Focus, seq<string>)>, issues: seq<Issue>): Focus
  {
    if |rules| == 0 then Quality
    else if MentionsAny(issues, rules[0].1) then rules[0].0
    else FirstFocus(rules[1..], issues)
  }

  /** The first group some message mentions decides; later groups matter
      only when every earlier one fails. */
  lemma {:induction false} FirstFocusPriority(rules: seq<(Focus, seq<string>)>, issues: seq<Issue>, i: nat)
    requires i < |rules| && MentionsAny(issues, rules[i].1)
    requires forall j :: 0 <= j < i ==> !MentionsAny(issues, rules[j].1)
    ensures FirstFocus(rules, issues) == rules[i].0
  {
    if i > 0 {
      assert !MentionsAny(issues, rules[0].1);
      FirstFocusPriority(rules[1..], issues, i - 1);
    }
  }

  /** When no group is mentioned, the lesson is about code quality. */
  lemma {:induction false} FirstFocusFallback(rules: seq<(Focus, seq<string>)>, issues: seq<Issue>)
    requires forall j :: 0 <= j < |rules| ==> !MentionsAny(issues, rules[j].1)
    ensures FirstFocus(rules, issues) == Quality
  {
    if |rules| > 0 {
      assert !MentionsAny(issues, rules[0].1);
      FirstFocusFallback(rules[1..], issues);
    }
  }

  /** The if-chain and the priority table agree on every issue list. */
  lemma FocusIsFirstMatch(issues: seq<Issue>)
    ensures FocusOf(issues) == FirstFocus(FocusRules, issues)
  {
    var r := FocusRules;
    assert MentionsAny(issues, ["var"]) <==> Mentions(issues, "var") by {
      assert ["var"][0] == "var";
    }
    assert MentionsAny(issues, ["semicolon", "semi"]) <==> Mentions(issues, "semicolon") || Mentions(issues, "semi") by {
      assert ["semicolon", "semi"][0] == "semicolon" && ["semicolon", "semi"][1] == "semi";
    }
    assert MentionsAny(issues, ["unused"]) <==> Mentions(issues, "unused") by {
      assert ["unused"][0] == "unused";
    }
    assert MentionsAny(issues, ["undefined", "undef"]) <==> Mentions(issues, "undefined") || Mentions(issues, "undef") by {
      assert ["undefined", "undef"][0] == "undefined" && ["undefined", "undef"][1] == "undef";
    }
    assert r[3..][1..] == [];
    assert FirstFocus(r[3..], issues) ==
      (if Mentions(issues, "undefined") || Mentions(issues, "undef") then Definitions else Quality);
    assert r[2..][1..] == r[3..];
    assert FirstFocus(r[2..], issues) ==
      (if Mentions(issues, "unused") then Cleanliness else FirstFocus(r[3..], issues));
    assert r[1..][1..] == r[2..];
    assert FirstFocus(r[1..], issues) ==
      (if Mentions(issues, "semicolon") || Mentions(issues, "semi") then Consistency else FirstFocus(r[2..], issues));
  }

  // The longer texts below are written as concatenations of short pieces:
  // the verifier reasons about the characters of short literals directly,
  // and about a concatenation piece by piece.

  function AreaName(f: Focus): string
  {
    match f
    case Declarations => "variable declarations"
    case Consistency => "syntax consistency"
    case Cleanliness => "code cleanliness"
    case Definitions => "variable definitions"
    case Quality => "code quality"
  }

  function Cause(f: Focus): string
  {
    match f
    case Declarations => "Using var instead of " + "let/const can cause " + "scoping issues"
    case Consistency => "Missing semicolons can " + "lead to unexpected " + "behavior"
    case Cleanliness => "Unused variables " + "clutter code and may " + "indicate bugs"
    case Definitions => "Using undefined " + "variables will cause " + "runtime errors"
    case Quality => "Various coding issues " + "were detected"
  }

  /** The fix wording; only the first two areas look at whether the text changed. */
  function FixAdvice(f: Focus, wasFixed: bool): string
  {
    match f
    case Declarations =>
      if wasFixed then "Auto-fixed to use " + "const/let for better " + "scoping" else "Replace var with let or const"
    case Consistency =>
      if wasFixed then "Auto-added missing semicolons" else "Add semicolons at the " + "end of statements"
    case Cleanliness => "Remove unused variables " + "or use them in your " + "logic"
    case Definitions => "Declare variables " + "before using them or " + "import from modules"
    case Quality => "Review and apply the " + "suggested fixes"
  }

  function Tip(f: Focus): string
  {
    match f
    case Declarations => "Use const by default, " + "let when reassigning, " + "avoid var"
    case Consistency => "Configure your editor " + "to auto-insert " + "semicolons"
    case Cleanliness => "Clean up unused code " + "regularly to maintain " + "readability"
    case Definitions => "Always declare " + "variables with let, " + "const, or function " + "declarations"
    case Quality => "Use a linter in your " + "editor for real-time " + "feedback"
  }

  // ===========================================================================
  // The template

  /** `N error(s)` when there is an error, else `M warning(s)`. */
  function IssueText(errors: nat, warnings: nat): string
  {
    if errors > 0 then ShowNat(errors) + " error(s)" else ShowNat(warnings) + " warning(s)"
  }

  const HeaderPrefix: string := "Code Quality Check: " + "Found "
  const CausePrefix: string := "\U{2022} Cause: "
  const FixPrefix: string := "\U{2022} Fix: "
  const TipPrefix: string := "\U{2022} Practice tip: "

  function HeaderLine(errors: nat, warnings: nat, f: Focus): string
  {
    HeaderPrefix + IssueText(errors, warnings) + " in " + AreaName(f)
  }

  function Header(issues: seq<Issue>): string
  {
    HeaderLine(CountSeverity(issues, Error), CountSeverity(issues, Warning), FocusOf(issues))
  }

  /** The lesson's lines, before they are joined with `\n`. */
  function LessonLines(issues: seq<Issue>, wasFixed: bool): seq<string>
  {
    var f := FocusOf(issues);
    [Header(issues), CausePrefix + Cause(f), FixPrefix + FixAdvice(f, wasFixed), TipPrefix + Tip(f)]
  }

  function GenerateLesson(issues: seq<Issue>, originalCode: string, fixedCode: string): string
  {
    if |issues| == 0 then ExcellentLesson
    else
      var f := FocusOf(issues);
      var causeLine := CausePrefix + Cause(f);
      var fixLine := FixPrefix + FixAdvice(f, originalCode != fixedCode);
      var tipLine := TipPrefix + Tip(f);
      Header(issues) + "\n" + (causeLine + "\n" + (fixLine + "\n" + tipLine))
  }

  // ===========================================================================
  // Properties

  lemma NoIssuesExcellent(originalCode: string, fixedCode: string)
    ensures GenerateLesson([], originalCode, fixedCode) == ExcellentLesson
    ensures StartsWith(GenerateLesson([], originalCode, fixedCode), "Code Quality Check: Excellent!")
  {
    assert ExcellentLesson[..|"Code Quality Check: Excellent!"|] == "Code Quality Check: Excellent!";
  }

  /** The lesson for a non-empty issue list is the four template lines joined by `\n`,
      and splitting it at `\n` gives them back. */
  lemma FourLines(issues: seq<Issue>, originalCode: string, fixedCode: string)
    requires |issues| > 0
    ensures var lines := LessonLines(issues, originalCode != fixedCode);
      && GenerateLesson(issues, originalCode, fixedCode) == Join(lines, "\n")
      && Split(GenerateLesson(issues, originalCode, fixedCode), '\n') == lines
  {
    var wasFixed := originalCode != fixedCode;
    var f := FocusOf(issues);
    HeaderOneLine(CountSeverity(issues, Error), CountSeverity(issues, Warning), f);
    TextsOneLine(f, wasFixed);
    assert '\n' !in CausePrefix && '\n' !in FixPrefix && '\n' !in TipPrefix;
    JoinFour(Header(issues), CausePrefix + Cause(f), FixPrefix + FixAdvice(f, wasFixed), TipPrefix + Tip(f));
    SplitFour(Header(issues), CausePrefix + Cause(f), FixPrefix + FixAdvice(f, wasFixed), TipPrefix + Tip(f));
  }

  lemma JoinFour(l0: string, l1: string, l2: string, l3: string)
    ensures Join([l0, l1, l2, l3], "\n") == l0 + "\n" + (l1 + "\n" + (l2 + "\n" + l3))
  {
    var lines := [l0, l1, l2, l3];
    assert lines[1..] == [l1, l2, l3];
    assert lines[1..][1..] == [l2, l3];
    assert lines[1..][1..][1..] == [l3];
    assert Join([l3], "\n") == l3;
    assert Join([l2, l3], "\n") == l2 + "\n" + l3;
    assert Join([l1, l2, l3], "\n") == l1 + "\n" + (l2 + "\n" + l3);
  }

  /** Four one-line texts joined by `\n` split back into themselves. */
  lemma SplitFour(l0: string, l1: string, l2: string, l3: string)
    requires '\n' !in l0 && '\n' !in l1 && '\n' !in l2 && '\n' !in l3
    ensures Split(l0 + "\n" + (l1 + "\n" + (l2 + "\n" + l3)), '\n') == [l0, l1, l2, l3]
  {
    SplitNoSeparator(l3, '\n');
    SplitCons(l2, l3, '\n');
    SplitCons(l1, l2 + "\n" + l3, '\n');
    SplitCons(l0, l1 + "\n" + (l2 + "\n" + l3), '\n');
  }

  lemma HeaderOneLine(errors: nat, warnings: nat, f: Focus)
    ensures '\n' !in HeaderLine(errors, warnings, f)
  {
    assert '\n' !in AreaName(f) by { TextsOneLine(f, false); }
    assert '\n' !in IssueText(errors, warnings) by { IssueTextOneLine(errors, warnings); }
    assert '\n' !in HeaderPrefix && '\n' !in " in ";
    NoNewlineInFour(HeaderPrefix, IssueText(errors, warnings), " in ", AreaName(f));
  }

  lemma NoNewlineInFour(a: string, b: string, c: string, d: string)
    requires '\n' !in a && '\n' !in b && '\n' !in c && '\n' !in d
    ensures '\n' !in a + b + c + d
  {
  }

  lemma IssueTextOneLine(errors: nat, warnings: nat)
    ensures '\n' !in IssueText(errors, warnings)
  {
    var ds := if errors > 0 then ShowNat(errors) else ShowNat(warnings);
    forall i | 0 <= i < |ds| ensures ds[i] != '\n' {
      assert IsDigit(ds[i]);
    }
    assert '\n' !in " error(s)" && '\n' !in " warning(s)";
  }

  /** None of the focus-dependent texts spans two lines. */
  lemma TextsOneLine(f: Focus, wasFixed: bool)
    ensures '\n' !in AreaName(f) && '\n' !in Cause(f) && '\n' !in FixAdvice(f, wasFixed) && '\n' !in Tip(f)
  {
    match f
    case Declarations => DeclarationsExplained(); DeclarationsAdvised();
    case Consistency => ConsistencyExplained(); ConsistencyAdvised();
    case Cleanliness => CleanlinessExplained(); CleanlinessAdvised();
    case Definitions => DefinitionsExplained(); DefinitionsAdvised();
    case Quality => QualityExplained(); QualityAdvised();
  }

  lemma DeclarationsExplained()
    ensures '\n' !in AreaName(Declarations) + Cause(Declarations)
  {
  }

  lemma DeclarationsAdvised()
    ensures '\n' !in FixAdvice(Declarations, true) + FixAdvice(Declarations, false) + Tip(Declarations)
  {
  }

  lemma ConsistencyExplained()
    ensures '\n' !in AreaName(Consistency) + Cause(Consistency)
  {
  }

  lemma ConsistencyAdvised()
    ensures '\n' !in FixAdvice(Consistency, true) + FixAdvice(Consistency, false) + Tip(Consistency)
  {
  }

  lemma CleanlinessExplained()
    ensures '\n' !in AreaName(Cleanliness) + Cause(Cleanliness)
  {
  }

  lemma CleanlinessAdvised()
    ensures '\n' !in FixAdvice(Cleanliness, true) + FixAdvice(Cleanliness, false) + Tip(Cleanliness)
  {
  }

  lemma DefinitionsExplained()
    ensures '\n' !in AreaName(Definitions) + Cause(Definitions)
  {
  }

  lemma DefinitionsAdvised()
    ensures '\n' !in FixAdvice(Definitions, true) + FixAdvice(Definitions, false) + Tip(Definitions)
  {
  }

  lemma QualityExplained()
    ensures '\n' !in AreaName(Quality) + Cause(Quality)
  {
  }

  lemma QualityAdvised()
    ensures '\n' !in FixAdvice(Quality, true) + FixAdvice(Quality, false) + Tip(Quality)
  {
  }

  /** The number in the header reads back as the error count when there is an
      error, else as the warning count. */
  lemma HeaderCount(issues: seq<Issue>)
    ensures var h := Header(issues);
      && StartsWith(h, HeaderPrefix)
      && DecimalValue(LeadingDigits(h[|HeaderPrefix|..])) ==
           (if CountSeverity(issues, Error) > 0 then CountSeverity(issues, Error)
            else CountSeverity(issues, Warning))
  {
    HeaderLineCount(CountSeverity(issues, Error), CountSeverity(issues, Warning), FocusOf(issues));
  }

  lemma HeaderLineCount(errors: nat, warnings: nat, f: Focus)
    ensures var h := HeaderLine(errors, warnings, f);
      && StartsWith(h, HeaderPrefix)
      && DecimalValue(LeadingDigits(h[|HeaderPrefix|..])) == (if errors > 0 then errors else warnings)
  {
    var n := if errors > 0 then errors else warnings;
    var word := if errors > 0 then " error(s)" else " warning(s)";
    var rest := word + (" in " + AreaName(f));
    assert rest[0] == ' ';
    Regroup(HeaderPrefix, ShowNat(n), word, " in ", AreaName(f));
    NumberAfterPrefix(HeaderPrefix, n, rest);
  }

  lemma Regroup(a: string, b: string, c: string, d: string, e: string)
    ensures a + (b + c) + d + e == a + b + (c + (d + e))
  {
  }

  /** A number printed between a prefix and a text that starts with a
      non-digit is read back by taking the digits after the prefix. */
  lemma NumberAfterPrefix(prefix: string, n: nat, rest: string)
    requires |rest| == 0 || !IsDigit(rest[0])
    ensures StartsWith(prefix + ShowNat(n) + rest, prefix)
    ensures DecimalValue(LeadingDigits((prefix + ShowNat(n) + rest)[|prefix|..])) == n
  {
    var h := prefix + ShowNat(n) + rest;
    assert h[..|prefix|] == prefix;
    assert h[|prefix|..] == ShowNat(n) + rest;
    LeadingDigitsOf(ShowNat(n), rest);
    DecimalShow(n);
  }

  /** Outside the var and semicolon areas the lesson does not depend on whether
      the text was changed; inside them the fix line says which. */
  lemma FixWordingDependsOnChange(issues: seq<Issue>, o1: string, f1: string, o2: string, f2: string)
    ensures FocusOf(issues) !in {Declarations, Consistency} ==>
      GenerateLesson(issues, o1, f1) == GenerateLesson(issues, o2, f2)
    ensures |issues| > 0 && FocusOf(issues) in {Declarations, Consistency} && (o1 == f1) != (o2 == f2) ==>
      GenerateLesson(issues, o1, f1) != GenerateLesson(issues, o2, f2)
  {
    var f := FocusOf(issues);
    if |issues| > 0 && f in {Declarations, Consistency} && (o1 == f1) != (o2 == f2) {
      FourLines(issues, o1, f1);
      FourLines(issues, o2, f2);
      var x, y := FixAdvice(f, o1 != f1), FixAdvice(f, o2 != f2);
      assert x != y by { FixAdviceDiffers(f); }
      assert (FixPrefix + x)[|FixPrefix|..] == x && (FixPrefix + y)[|FixPrefix|..] == y;
      assert LessonLines(issues, o1 != f1)[2] != LessonLines(issues, o2 != f2)[2];
    } else if f !in {Declarations, Consistency} {
      assert FixAdvice(f, o1 != f1) == FixAdvice(f, o2 != f2);
    }
  }

  /** The var and semicolon areas word their fix differently after a change. */
  lemma FixAdviceDiffers(f: Focus)
    requires f in {Declarations, Consistency}
    ensures FixAdvice(f, true) != FixAdvice(f, false)
  {
    assert |FixAdvice(f, true)| != |FixAdvice(f, false)|;
  }

  /** `semicolon` and `undefined` contain `semi` and `undef`, so the longer
      keywords never decide anything on their own. */
  lemma LongKeywordsRedundant(issues: seq<Issue>)
    ensures Mentions(issues, "semicolon") ==> Mentions(issues, "semi")
    ensures Mentions(issues, "undefined") ==> Mentions(issues, "undef")
  {
    if Mentions(issues, "semicolon") {
      var i :| 0 <= i < |issues| && Contains(ToLower(issues[i].message), "semicolon");
      ContainsPrefix(ToLower(issues[i].message), "semicolon", "semi");
    }
    if Mentions(issues, "undefined") {
      var i :| 0 <= i < |issues| && Contains(ToLower(issues[i].message), "undefined");
      ContainsPrefix(ToLower(issues[i].message), "undefined", "undef");
    }
  }

  lemma ContainsPrefix(s: string, p: string, q: string)
    requires Contains(s, p) && StartsWith(p, q)
    ensures Contains(s, q)
  {
    var i := IndexOf(s, p);
    assert s[i..i + |q|] == p[..|q|];
    ContainsAt(s, q, i);
  }

  /** A message naming `'total'` as not defined matches no keyword: the
      lesson falls back to the general code-quality area. */
  lemma NotDefinedMessageHasNoFocus(line: nat, severity: Severity, suggestion: string)
    ensures FocusOf([Issue(line, severity, "'total' is not defined.", suggestion)]) == Quality
  {
    NotDefinedLetters();
    QualityFallback(Issue(line, severity, "'total' is not defined.", suggestion));
  }

  /** A lone message without the letters v, m and u leaves the general area. */
  lemma QualityFallback(issue: Issue)
    requires var l := ToLower(issue.message); 'v' !in l && 'm' !in l && 'u' !in l
    ensures FocusOf([issue]) == Quality
  {
    var l := ToLower(issue.message);
    CharAbsent(l, "var", 0);
    MentionsOne(issue, "var");
    CharAbsent(l, "semicolon", 2);
    MentionsOne(issue, "semicolon");
    CharAbsent(l, "semi", 2);
    MentionsOne(issue, "semi");
    CharAbsent(l, "unused", 0);
    MentionsOne(issue, "unused");
    CharAbsent(l, "undefined", 0);
    MentionsOne(issue, "undefined");
    CharAbsent(l, "undef", 0);
    MentionsOne(issue, "undef");
  }

  lemma MentionsOne(issue: Issue, keyword: string)
    ensures Mentions([issue], keyword) <==> Contains(ToLower(issue.message), keyword)
  {
    if Contains(ToLower(issue.message), keyword) {
      assert [issue][0] == issue;
    }
  }

  lemma NotDefinedLetters()
    ensures var l := ToLower("'total' is not defined."); 'v' !in l && 'm' !in l && 'u' !in l
  {
    var m := "'total' is not defined.";
    assert 'v' !in ToLower(m) by {
      assert 'v' !in m && 'V' !in m;
      LowerAbsent(m, 'v');
    }
    assert 'm' !in ToLower(m) by {
      assert 'm' !in m && 'M' !in m;
      LowerAbsent(m, 'm');
    }
    assert 'u' !in ToLower(m) by {
      assert 'u' !in m && 'U' !in m;
      LowerAbsent(m, 'u');
    }
  }

  /** A lowercase letter absent from a text in both cases is absent from its lowercase form. */
  lemma LowerAbsent(s: string, c: char)
    requires 'a' <= c <= 'z' && c !in s && (c as int - 32) as char !in s
    ensures c !in ToLower(s)
  {
    var l := ToLower(s);
    forall i | 0 <= i < |l| ensures l[i] != c {
      assert l[i] == LowerChar(s[i]);
    }
  }

  /** A text without some character of `p` does not contain `p`. */
  lemma CharAbsent(s: string, p: string, k: nat)
    requires k < |p| && p[k] !in s
    ensures !Contains(s, p)
  {
  }

  /** The var warning the built-in analyzer raises steers the lesson to
      variable declarations, whatever else is reported. */
  lemma VarWarningFocus(issues: seq<Issue>, k: nat)
    requires k < |issues| && issues[k].message == "Unexpected var, use let or const instead"
    ensures FocusOf(issues) == Declarations
  {
    VarWarningMentionsVar();
    assert Mentions(issues, "var") by {
      assert Contains(ToLower(issues[k].message), "var");
    }
  }

  lemma VarWarningMentionsVar()
    ensures Contains(ToLower("Unexpected var, use let or const instead"), "var")
  {
    var l := ToLower("Unexpected var, use let or const instead");
    assert l[11] == 'v' && l[12] == 'a' && l[13] == 'r';
    assert l[11..14] == "var";
    ContainsAt(l, "var", 11);
  }

  /** The missing-semicolon warning of the built-in analyzer steers the lesson
      to syntax consistency unless some message mentions `var`. */
  lemma SemicolonWarningFocus(issues: seq<Issue>, k: nat)
    requires k < |issues| && issues[k].message == "Missing semicolon"
    requires !Mentions(issues, "var")
    ensures FocusOf(issues) == Consistency
  {
    SemicolonWarningMentionsSemi();
    assert Mentions(issues, "semi") by {
      assert Contains(ToLower(issues[k].message), "semi");
    }
  }

  lemma SemicolonWarningMentionsSemi()
    ensures Contains(ToLower("Missing semicolon"), "semi")
  {
    var l := ToLower("Missing semicolon");
    assert l[8..12] == "semi";
    ContainsAt(l, "semi", 8);
  }
}

=== FILE: requests.dfy ===
/** The request check both `/api/analyze` handlers run before analysing:
    every field must be present and non-empty, and only JavaScript is
    accepted. The serverless handler additionally rejects a request without
    a body, and then answers with the built-in line analyzer and a lesson. */
module Requests {
  import opened Text
  import opened Issues
  import SimpleAnalyzer
  import Lesson

  /** The three body fields; `None` is an absent field. */
  datatype Fields = Fields(language: Option<string>, filename: Option<string>, code: Option<string>)

  datatype Verdict = Proceed | Reject(status: nat, error: string)

  const MissingFieldsError: string := "Missing required fields: language, filename, code"
  const UnsupportedLanguageError: string := "Only JavaScript is supported in this MVP"
  const NoBodyError: string := "No request body provided"

  /** A JavaScript truthiness test on a string field: present and non-empty. */
  predicate Present(v: Option<string>)
  {
    v.Some? && |v.value| > 0
  }

  predicate AllPresent(f: Fields)
  {
    Present(f.language) && Present(f.filename) && Present(f.code)
  }

  /** The field check shared by both handlers. */
  function ValidateFields(f: Fields): (r: Verdict)
    ensures r == Proceed <==> AllPresent(f) && f.language.value == "javascript"
    ensures r.Reject? ==> r.status == 400
    ensures !AllPresent(f) ==> r.error == MissingFieldsError
  {
    if !AllPresent(f) then Reject(400, MissingFieldsError)
    else if f.language.value != "javascript" then Reject(400, UnsupportedLanguageError)
    else Proceed
  }

  /** The serverless handler's check: a missing body first, then the fields. */
  function ValidateRequest(body: Option<Fields>): (r: Verdict)
    ensures r == Proceed <==> body.Some? && ValidateFields(body.value) == Proceed
    ensures r.Reject? ==> r.status == 400
    ensures body.None? ==> r.error == NoBodyError
  {
    if body.None? then Reject(400, NoBodyError) else ValidateFields(body.value)
  }

  /** A request proceeds exactly when every field is present and the
      language is `javascript`. */
  lemma ProceedIff(f: Fields)
    ensures ValidateFields(f) == Proceed <==>
      Present(f.language) && Present(f.filename) && Present(f.code) && f.language.value == "javascript"
  {
  }

  /** A missing or empty field is reported whatever the language says, and
      the language is reported only when nothing is missing. */
  lemma MissingFieldsFirst(f: Fields)
    ensures !AllPresent(f) ==> ValidateFields(f) == Reject(400, MissingFieldsError)
    ensures ValidateFields(f) == Reject(400, UnsupportedLanguageError) <==>
      AllPresent(f) && f.language.value != "javascript"
    ensures ValidateFields(f).Reject? ==> ValidateFields(f).status == 400
  {
    assert MissingFieldsError != UnsupportedLanguageError by {
      assert |MissingFieldsError| != |UnsupportedLanguageError|;
    }
  }

  /** With a body, the serverless handler decides as the server does. */
  lemma HandlersAgree(f: Fields)
    ensures ValidateRequest(Some(f)) == ValidateFields(f)
    ensures ValidateRequest(None) == Reject(400, NoBodyError)
  {
  }

  // ---------------------------------------------------------------------------
  // The serverless handler's answer

  datatype Response = Analyzed(issues: seq<Issue>, fixedCode: string, lesson: string) | Failed(status: nat, error: string)

  /** What the serverless handler answers to a POST: the verdict's error, or
      the built-in analysis of the code with its lesson. */
  function Respond(body: Option<Fields>): (r: Response)
    ensures r.Failed? <==> ValidateRequest(body).Reject?
    ensures r.Failed? ==> ValidateRequest(body) == Reject(r.status, r.error)
    ensures r.Analyzed? ==>
      body.Some? && AllPresent(body.value) && body.value.language.value == "javascript"
      && r.issues == SimpleAnalyzer.SimpleAnalysis(body.value.code.value).issues
      && r.fixedCode == SimpleAnalyzer.SimpleAnalysis(body.value.code.value).fixedCode
      && r.lesson == Lesson.GenerateLesson(r.issues, body.value.code.value, r.fixedCode)
  {
    match ValidateRequest(body)
    case Reject(status, error) => Failed(status, error)
    case Proceed =>
      var code := body.value.code.value;
      var a := SimpleAnalyzer.SimpleAnalysis(code);
      Analyzed(a.issues, a.fixedCode, Lesson.GenerateLesson(a.issues, code, a.fixedCode))
  }

  /** Code with a line that uses `var` is answered with a lesson about
      variable declarations, whatever else the line analyzer reports. */
  lemma VarCodeLesson(f: Fields, k: nat)
    requires ValidateFields(f) == Proceed
    requires k < |Split(f.code.value, '\n')| && SimpleAnalyzer.UsesVar(Split(f.code.value, '\n')[k])
    ensures var r := Respond(Some(f));
      r.Analyzed? && |r.issues| > 0 && Lesson.FocusOf(r.issues) == Lesson.Declarations
  {
    var issues := SimpleAnalyzer.SimpleAnalysis(f.code.value).issues;
    SimpleAnalyzer.VarLineReported(f.code.value, k);
    var j :| 0 <= j < |issues| && issues[j] == SimpleAnalyzer.VarIssue(k + 1);
    Lesson.VarWarningFocus(issues, j);
  }
}

=== FILE: simple_analyzer.dfy ===
/** The serverless fallback analyzer `simpleAnalyzeJS` (api/analyze.js): three
    line heuristics (odd quote counts, a missing semicolon, `var `) that report
    issues and patch a working copy of the text.

    The specification first decides, for every `\n`-separated line, which of
    the three rules fire (`CheckLine`), then folds over the lines from left to
    right: `IssuesOf` and `FixesOf` give the issues and the working text after a
    prefix of the lines. The method `SimpleAnalyzeJS` is the source's loop,
    proved to compute exactly that. */
module SimpleAnalyzer {
  import opened Text
  import opened Issues

  // ===========================================================================
  // The issues the heuristics report

  function StringIssue(n: nat): Issue
  {
    Issue(n, Error, "Unterminated string literal", "Add missing closing quote")
  }

  function SemicolonIssue(n: nat): Issue
  {
    Issue(n, Warning, "Missing semicolon", "Add semicolon at end of statement")
  }

  function VarIssue(n: nat): Issue
  {
    Issue(n, Warning, "Unexpected var, use let or const instead", "Use let or const instead of var")
  }

  // ===========================================================================
  // One line

  /** The guard on the trimmed line: it contains a double or a single quote. */
  predicate HasQuote(trimmed: string)
  {
    Contains(trimmed, "\"") || Contains(trimmed, "'")
  }

  /** An odd number of `"` or an odd number of `'` on the (untrimmed) line. */
  predicate OddQuotes(line: string)
  {
    Count(line, '"') % 2 != 0 || Count(line, '\'') % 2 != 0
  }

  predicate StringError(line: string)
  {
    HasQuote(Trim(line)) && OddQuotes(line)
  }

  /** The quote that is added: the double quote whenever its count is odd. */
  function ClosingQuote(line: string): char
  {
    if Count(line, '"') % 2 != 0 then '"' else '\''
  }

  /** The position of the added quote: before the last `)`, else at the end. */
  function QuotePosition(line: string): (k: nat)
    ensures k <= |line|
    ensures k < |line| <==> ')' in line
    ensures k < |line| ==> line[k] == ')' && forall j :: k < j < |line| ==> line[j] != ')'
  {
    var p := LastIndexOf(line, ')');
    if p > -1 then p else |line|
  }

  function QuoteFixedLine(line: string): (r: string)
    ensures r == line[..QuotePosition(line)] + [ClosingQuote(line)] + line[QuotePosition(line)..]
  {
    var p := LastIndexOf(line, ')');
    if p > -1 then line[..p] + [ClosingQuote(line)] + line[p..]
    else
      assert line[..|line|] == line && line[|line|..] == [];
      line + [ClosingQuote(line)]
  }

  predicate MissingSemicolon(line: string)
  {
    var t := Trim(line);
    && t != ""
    && !EndsWith(t, ";") && !EndsWith(t, "{") && !EndsWith(t, "}")
    && !StartsWith(t, "//")
    && (Contains(t, "console.") || Contains(t, "="))
  }

  predicate UsesVar(line: string)
  {
    Contains(Trim(line), "var ")
  }

  /** A line together with the verdicts of the three rules on it. */
  datatype LineCheck = LineCheck(line: string, stringError: bool, missingSemicolon: bool, usesVar: bool)

  function CheckLine(line: string): (c: LineCheck)
    ensures c.line == line
  {
    LineCheck(line, StringError(line), MissingSemicolon(line), UsesVar(line))
  }

  /** The issues of line `n`, in the order the source checks the rules:
      string error, then semicolon, then var. */
  function RuleIssues(c: LineCheck, n: nat): (r: seq<Issue>)
    ensures |r| <= 3
    ensures forall i :: 0 <= i < |r| ==> r[i].line == n
  {
    (if c.stringError then [StringIssue(n)] else [])
    + (if c.missingSemicolon then [SemicolonIssue(n)] else [])
    + (if c.usesVar then [VarIssue(n)] else [])
  }

  /** Each of the three issues is reported exactly when its rule fires. */
  lemma RuleIssuesReport(c: LineCheck, n: nat)
    ensures StringIssue(n) in RuleIssues(c, n) <==> c.stringError
    ensures SemicolonIssue(n) in RuleIssues(c, n) <==> c.missingSemicolon
    ensures VarIssue(n) in RuleIssues(c, n) <==> c.usesVar
  {
    assert StringIssue(n) != SemicolonIssue(n) by { assert |StringIssue(n).message| != |SemicolonIssue(n).message|; }
    assert StringIssue(n) != VarIssue(n) by { assert |StringIssue(n).message| != |VarIssue(n).message|; }
    assert VarIssue(n) != SemicolonIssue(n) by { assert |VarIssue(n).message| != |SemicolonIssue(n).message|; }
  }

  /** The patches the fired rules apply to the working text. The quote and
      semicolon patches replace the first occurrence of the original line text;
      the var patch rewrites every `var ` in the whole text. */
  function PatchLine(text: string, c: LineCheck): string
  {
    var t1 := if c.stringError then ReplaceFirst(text, c.line, QuoteFixedLine(c.line)) else text;
    var t2 := if c.missingSemicolon then ReplaceFirst(t1, c.line, c.line + ";") else t1;
    if c.usesVar then ReplaceAll(t2, "var ", "const ") else t2
  }

  // ===========================================================================
  // The fold over the lines

  /** One verdict per line, in order. */
  function Checks(lines: seq<string>): seq<LineCheck>
  {
    seq(|lines|, i requires 0 <= i < |lines| => CheckLine(lines[i]))
  }

  /** The verdicts are those of the lines, one each, in order. */
  lemma ChecksAt(lines: seq<string>)
    ensures |Checks(lines)| == |lines|
    ensures forall i :: 0 <= i < |lines| ==> Checks(lines)[i] == CheckLine(lines[i])
  {
  }

  /** The issues after the given lines; the last one is line number |checks|. */
  function IssuesOf(checks: seq<LineCheck>): seq<Issue>
  {
    if |checks| == 0 then []
    else IssuesOf(checks[..|checks| - 1]) + RuleIssues(checks[|checks| - 1], |checks|)
  }

  /** The working text after the patches of the given lines. */
  function FixesOf(code: string, checks: seq<LineCheck>): string
  {
    if |checks| == 0 then code
    else PatchLine(FixesOf(code, checks[..|checks| - 1]), checks[|checks| - 1])
  }

  function SimpleAnalysis(code: string): Analysis
  {
    var checks := Checks(Split(code, '\n'));
    Analysis(IssuesOf(checks), FixesOf(code, checks))
  }

  // The body of the source's `forEach` callback, one method per check.

  /** The quote check: an odd quote count reports a string error and inserts
      the missing quote before the last `)` of the line, or at its end. */
  method CheckQuotes(issues: seq<Issue>, fixedCode: string, line: string, trimmedLine: string, lineNum: nat, ghost c: LineCheck)
    returns (issues': seq<Issue>, fixedCode': string)
    requires trimmedLine == Trim(line) && c == CheckLine(line)
    ensures issues' == issues + (if c.stringError then [StringIssue(lineNum)] else [])
    ensures fixedCode' == if c.stringError then ReplaceFirst(fixedCode, line, QuoteFixedLine(line)) else fixedCode
  {
    issues' := issues;
    fixedCode' := fixedCode;
    if Contains(trimmedLine, "\"") || Contains(trimmedLine, "'") {
      var doubleQuotes := Count(line, '"');
      var singleQuotes := Count(line, '\'');
      if doubleQuotes % 2 != 0 || singleQuotes % 2 != 0 {
        issues' := issues' + [StringIssue(lineNum)];
        if doubleQuotes % 2 != 0 {
          var lastParenIndex := LastIndexOf(line, ')');
          if lastParenIndex > -1 {
            var fixedLine := line[..lastParenIndex] + "\"" + line[lastParenIndex..];
            fixedCode' := ReplaceFirst(fixedCode', line, fixedLine);
          } else {
            fixedCode' := ReplaceFirst(fixedCode', line, line + "\"");
          }
        } else if singleQuotes % 2 != 0 {
          var lastParenIndex := LastIndexOf(line, ')');
          if lastParenIndex > -1 {
            var fixedLine := line[..lastParenIndex] + "'" + line[lastParenIndex..];
            fixedCode' := ReplaceFirst(fixedCode', line, fixedLine);
          } else {
            fixedCode' := ReplaceFirst(fixedCode', line, line + "'");
          }
        }
      }
    }
  }

  /** The semicolon check: reports a warning and appends `;` to the line. */
  method CheckSemicolon(issues: seq<Issue>, fixedCode: string, line: string, trimmedLine: string, lineNum: nat, ghost c: LineCheck)
    returns (issues': seq<Issue>, fixedCode': string)
    requires trimmedLine == Trim(line) && c == CheckLine(line)
    ensures issues' == issues + (if c.missingSemicolon then [SemicolonIssue(lineNum)] else [])
    ensures fixedCode' == if c.missingSemicolon then ReplaceFirst(fixedCode, line, line + ";") else fixedCode
  {
    issues' := issues;
    fixedCode' := fixedCode;
    if && trimmedLine != ""
       && !EndsWith(trimmedLine, ";") && !EndsWith(trimmedLine, "{") && !EndsWith(trimmedLine, "}")
       && !StartsWith(trimmedLine, "//")
       && (Contains(trimmedLine, "console.") || Contains(trimmedLine, "="))
    {
      issues' := issues' + [SemicolonIssue(lineNum)];
      fixedCode' := ReplaceFirst(fixedCode', line, line + ";");
    }
  }

  /** The var check: reports a warning and rewrites every `var ` of the text. */
  method CheckVar(issues: seq<Issue>, fixedCode: string, line: string, trimmedLine: string, lineNum: nat, ghost c: LineCheck)
    returns (issues': seq<Issue>, fixedCode': string)
    requires trimmedLine == Trim(line) && c == CheckLine(line)
    ensures issues' == issues + (if c.usesVar then [VarIssue(lineNum)] else [])
    ensures fixedCode' == if c.usesVar then ReplaceAll(fixedCode, "var ", "const ") else fixedCode
  {
    issues' := issues;
    fixedCode' := fixedCode;
    if Contains(trimmedLine, "var ") {
      issues' := issues' + [VarIssue(lineNum)];
      fixedCode' := ReplaceAll(fixedCode', "var ", "const ");
    }
  }

  /** Regrouping the issue lists the three checks append. Stated over plain
      sequences, so the solver does not look into the conditional lists it is
      applied to; written inline in `AnalyzeLine` it exhausts the solver. */
  lemma Associative(a: seq<Issue>, b: seq<Issue>, c: seq<Issue>, d: seq<Issue>)
    ensures a + b + c + d == a + (b + c + d)
  {
  }

  /** One line: the three checks in the source's order. */
  method AnalyzeLine(issues: seq<Issue>, fixedCode: string, line: string, index: nat)
    returns (issues': seq<Issue>, fixedCode': string)
    ensures issues' == issues + RuleIssues(CheckLine(line), index + 1)
    ensures fixedCode' == PatchLine(fixedCode, CheckLine(line))
  {
    ghost var c := CheckLine(line);
    var lineNum := index + 1;
    var trimmedLine := Trim(line);
    issues', fixedCode' := CheckQuotes(issues, fixedCode, line, trimmedLine, lineNum, c);
    issues', fixedCode' := CheckSemicolon(issues', fixedCode', line, trimmedLine, lineNum, c);
    issues', fixedCode' := CheckVar(issues', fixedCode', line, trimmedLine, lineNum, c);
    Associative(issues,
      if c.stringError then [StringIssue(lineNum)] else [],
      if c.missingSemicolon then [SemicolonIssue(lineNum)] else [],
      if c.usesVar then [VarIssue(lineNum)] else []);
  }

  /** One more line extends both folds by that line's verdict. */
  lemma FoldStep(code: string, checks: seq<LineCheck>, index: nat)
    requires index < |checks|
    ensures IssuesOf(checks[..index + 1]) == IssuesOf(checks[..index]) + RuleIssues(checks[index], index + 1)
    ensures FixesOf(code, checks[..index + 1]) == PatchLine(FixesOf(code, checks[..index]), checks[index])
  {
    assert checks[..index + 1][..index] == checks[..index];
  }

  /** `simpleAnalyzeJS`: the loop over the lines of the input. */
  method SimpleAnalyzeJS(code: string) returns (result: Analysis)
    ensures result == SimpleAnalysis(code)
  {
    var issues: seq<Issue> := [];
    var lines := Split(code, '\n');
    var fixedCode := code;
    ghost var checks := Checks(lines);
    for index := 0 to |lines|
      invariant issues == IssuesOf(checks[..index])
      invariant fixedCode == FixesOf(code, checks[..index])
    {
      FoldStep(code, checks, index);
      issues, fixedCode := AnalyzeLine(issues, fixedCode, lines[index], index);
    }
    assert checks[..|lines|] == checks;
    result := Analysis(issues, fixedCode);
  }

  // ===========================================================================
  // The quote rule

  /** The `includes` guard is implied by the parity test: a line gets the
      string error exactly when one of its two quote counts is odd. */
  lemma StringErrorIffOdd(line: string)
    ensures StringError(line) <==> OddQuotes(line)
  {
    if OddQuotes(line) {
      var c := if Count(line, '"') % 2 != 0 then '"' else '\'';
      CountAbsent(line, c);
      TrimKeeps(line, c);
      ContainsChar(Trim(line), c);
      assert [c] == "\"" || [c] == "'";
    }
  }

  // ===========================================================================
  // Line numbers and order of the issues

  /** The issues of `issues` that sit on line `n`, in order. */
  function OnLine(issues: seq<Issue>, n: nat): (r: seq<Issue>)
    ensures |r| <= |issues|
    ensures forall x :: x in r ==> x in issues && x.line == n
  {
    if |issues| == 0 then []
    else (if issues[0].line == n then [issues[0]] else []) + OnLine(issues[1..], n)
  }

  lemma {:induction false} OnLineConcat(a: seq<Issue>, b: seq<Issue>, n: nat)
    ensures OnLine(a + b, n) == OnLine(a, n) + OnLine(b, n)
  {
    if |a| == 0 {
      assert a + b == b;
    } else {
      assert (a + b)[0] == a[0];
      assert (a + b)[1..] == a[1..] + b;
      OnLineConcat(a[1..], b, n);
    }
  }

  lemma {:induction false} OnLineAll(a: seq<Issue>, n: nat)
    requires forall i :: 0 <= i < |a| ==> a[i].line == n
    ensures OnLine(a, n) == a
  {
    if |a| > 0 {
      OnLineAll(a[1..], n);
      assert a == [a[0]] + a[1..];
    }
  }

  lemma {:induction false} OnLineNone(a: seq<Issue>, n: nat)
    requires forall i :: 0 <= i < |a| ==> a[i].line != n
    ensures OnLine(a, n) == []
  {
    if |a| > 0 {
      OnLineNone(a[1..], n);
    }
  }

  predicate LinesOrdered(issues: seq<Issue>)
  {
    forall i, j :: 0 <= i < j < |issues| ==> issues[i].line <= issues[j].line
  }

  /** Every issue names one of the lines, and lines never go backwards. */
  lemma {:induction false} IssuesOfOrdered(checks: seq<LineCheck>)
    ensures forall i :: 0 <= i < |IssuesOf(checks)| ==> 1 <= IssuesOf(checks)[i].line <= |checks|
    ensures LinesOrdered(IssuesOf(checks))
    decreases |checks|
  {
    if |checks| > 0 {
      var n := |checks| - 1;
      IssuesOfOrdered(checks[..n]);
      AppendLine(IssuesOf(checks[..n]), RuleIssues(checks[n], |checks|), |checks|);
    }
  }

  /** Appending issues of a later line keeps the lines ordered and in range. */
  lemma AppendLine(a: seq<Issue>, b: seq<Issue>, n: nat)
    requires n >= 1
    requires forall i :: 0 <= i < |a| ==> 1 <= a[i].line < n
    requires LinesOrdered(a)
    requires forall i :: 0 <= i < |b| ==> b[i].line == n
    ensures forall i :: 0 <= i < |a + b| ==> 1 <= (a + b)[i].line <= n
    ensures LinesOrdered(a + b)
  {
    var r := a + b;
    forall i | 0 <= i < |r| ensures 1 <= r[i].line <= n {
      if i >= |a| {
        assert r[i] == b[i - |a|];
      } else {
        assert r[i] == a[i];
      }
    }
    forall i, j | 0 <= i < j < |r| ensures r[i].line <= r[j].line {
      if j < |a| {
        assert r[i] == a[i] && r[j] == a[j];
      } else if i < |a| {
        assert r[i] == a[i] && r[j] == b[j - |a|];
      } else {
        assert r[i] == b[i - |a|] && r[j] == b[j - |a|];
      }
    }
  }

  /** The issues reported for line `n` are exactly that line's own. */
  lemma {:induction false} IssuesOfOnLine(checks: seq<LineCheck>, n: nat)
    requires 1 <= n <= |checks|
    ensures OnLine(IssuesOf(checks), n) == RuleIssues(checks[n - 1], n)
    decreases |checks|
  {
    var m := |checks| - 1;
    var a := IssuesOf(checks[..m]);
    var b := RuleIssues(checks[m], |checks|);
    assert IssuesOf(checks) == a + b;
    OnLineConcat(a, b, n);
    IssuesOfOrdered(checks[..m]);
    if n == |checks| {
      OnLineNone(a, n);
      OnLineAll(b, n);
    } else {
      IssuesOfOnLine(checks[..m], n);
      assert checks[..m][n - 1] == checks[n - 1];
      OnLineNone(b, n);
    }
  }

  /** The analyzer's issues lie on lines 1..(number of lines), in line order,
      and line `n` gets exactly the issues of the rules that fire on it: the
      string error, then the semicolon warning, then the var warning. */
  lemma SimpleIssuesByLine(code: string)
    ensures var issues := SimpleAnalysis(code).issues;
            var lines := Split(code, '\n');
            && (forall i :: 0 <= i < |issues| ==> 1 <= issues[i].line <= Count(code, '\n') + 1)
            && LinesOrdered(issues)
            && (forall n :: 1 <= n <= |lines| ==> OnLine(issues, n) == RuleIssues(CheckLine(lines[n - 1]), n))
  {
    var lines := Split(code, '\n');
    var checks := Checks(lines);
    ChecksAt(lines);
    IssuesOfOrdered(checks);
    forall n | 1 <= n <= |lines| ensures OnLine(IssuesOf(checks), n) == RuleIssues(CheckLine(lines[n - 1]), n) {
      IssuesOfOnLine(checks, n);
    }
  }

  /** A line that uses `var` is reported with the var warning on its own line number. */
  lemma VarLineReported(code: string, k: nat)
    requires k < |Split(code, '\n')| && UsesVar(Split(code, '\n')[k])
    ensures VarIssue(k + 1) in SimpleAnalysis(code).issues
  {
    VarLineInChecks(Split(code, '\n'), k);
  }

  lemma VarLineInChecks(lines: seq<string>, k: nat)
    requires k < |lines| && UsesVar(lines[k])
    ensures VarIssue(k + 1) in IssuesOf(Checks(lines))
  {
    var checks := Checks(lines);
    assert checks[k].usesVar by {
      assert checks[k] == CheckLine(lines[k]);
    }
    assert VarIssue(k + 1) in RuleIssues(checks[k], k + 1);
    ReportedOnLine(checks, k + 1, VarIssue(k + 1));
  }

  /** An issue of line `n` is in the whole list. */
  lemma ReportedOnLine(checks: seq<LineCheck>, n: nat, x: Issue)
    requires 1 <= n <= |checks| && x in RuleIssues(checks[n - 1], n)
    ensures x in IssuesOf(checks)
  {
    IssuesOfOnLine(checks, n);
  }

  // ===========================================================================
  // No `var ` survives

  /** The text `ReplaceAll(t, "var ", "const ")` starts with a `c`-free `q` only if `t` does. */
  lemma {:induction false} ReplacedStart(t: string, q: string)
    requires |q| > 0 && 'c' !in q
    ensures StartsWith(ReplaceAll(t, "var ", "const "), q) ==> StartsWith(t, q)
    decreases |t|
  {
    var r := ReplaceAll(t, "var ", "const ");
    if StartsWith(t, "var ") {
      assert r[0] == 'c';
    } else if |t| > 0 {
      var r1 := ReplaceAll(t[1..], "var ", "const ");
      assert r == [t[0]] + r1;
      if |q| > 1 {
        ReplacedStart(t[1..], q[1..]);
        if StartsWith(r, q) {
          assert r1[..|q| - 1] == r[1..|q|] == q[1..];
          assert t[..|q|] == [t[0]] + t[1..][..|q| - 1];
        }
      }
    }
  }

  /** After the global rewrite no `var ` is left. */
  lemma {:induction false} NoVarAfterReplace(s: string)
    ensures forall j: nat :: !OccursAt(ReplaceAll(s, "var ", "const "), "var ", j)
    decreases |s|
  {
    if StartsWith(s, "var ") {
      NoVarAfterReplace(s[4..]);
      NoVarAfterConst(ReplaceAll(s[4..], "var ", "const "));
    } else if |s| > 0 {
      var r1 := ReplaceAll(s[1..], "var ", "const ");
      assert ReplaceAll(s, "var ", "const ") == [s[0]] + r1;
      NoVarAfterReplace(s[1..]);
      if s[0] == 'v' {
        ReplacedStart(s[1..], "ar ");
        assert !StartsWith(s[1..], "ar ") by {
          if |s| >= 4 {
            assert s[..4] == [s[0]] + s[1..][..3];
          }
        }
      }
      NoVarAfterChar(s[0], r1);
    }
  }

  /** `const ` followed by a text without `var ` has no `var `. */
  lemma NoVarAfterConst(r1: string)
    requires forall j: nat :: !OccursAt(r1, "var ", j)
    ensures forall j: nat :: !OccursAt("const " + r1, "var ", j)
  {
    var r := "const " + r1;
    forall j: nat | j + 4 <= |r| ensures !OccursAt(r, "var ", j) {
      if j < 6 {
        assert r[j..j + 4][0] == "const "[j];
      } else {
        assert r[j..j + 4] == r1[j - 6..j - 6 + 4];
        assert !OccursAt(r1, "var ", j - 6);
      }
    }
  }

  /** A character before a text without `var ` starts a `var ` only if it is
      `v` and the text starts with `ar `. */
  lemma NoVarAfterChar(c: char, r1: string)
    requires forall j: nat :: !OccursAt(r1, "var ", j)
    requires c == 'v' ==> !StartsWith(r1, "ar ")
    ensures forall j: nat :: !OccursAt([c] + r1, "var ", j)
  {
    var r := [c] + r1;
    forall j: nat | j + 4 <= |r| ensures !OccursAt(r, "var ", j) {
      if j == 0 {
        assert r[0..4] == [c] + r1[..3];
        if c == 'v' {
          assert r[0..4][1..] == r1[..3] != "ar ";
          assert "var "[1..] == "ar ";
        } else {
          assert r[0..4][0] != "var "[0];
        }
      } else {
        assert r[j..j + 4] == r1[j - 1..j - 1 + 4];
        assert !OccursAt(r1, "var ", j - 1);
      }
    }
  }

  lemma NoVarAfterReplaceContains(s: string)
    ensures !Contains(ReplaceAll(s, "var ", "const "), "var ")
  {
    NoVarAfterReplace(s);
  }

  /** Patching a line by inserting one character other than those of `var `
      creates no `var `. */
  lemma InsertIntoLineKeepsNoVar(s: string, line: string, k: nat, c: char)
    requires k <= |line| && c !in "var " && !Contains(s, "var ")
    ensures !Contains(ReplaceFirst(s, line, line[..k] + [c] + line[k..]), "var ")
  {
    ReplaceFirstInserts(s, line, k, c);
    var i := IndexOf(s, line);
    if i >= 0 {
      InsertKeepsAbsent(s, i + k, c, "var ");
    }
  }

  lemma QuotePatchKeepsNoVar(text: string, line: string)
    requires !Contains(text, "var ")
    ensures !Contains(ReplaceFirst(text, line, QuoteFixedLine(line)), "var ")
  {
    InsertIntoLineKeepsNoVar(text, line, QuotePosition(line), ClosingQuote(line));
  }

  lemma SemicolonPatchKeepsNoVar(text: string, line: string)
    requires !Contains(text, "var ")
    ensures !Contains(ReplaceFirst(text, line, line + ";"), "var ")
  {
    assert line + ";" == line[..|line|] + [';'] + line[|line|..];
    InsertIntoLineKeepsNoVar(text, line, |line|, ';');
  }

  /** The quote and semicolon patches keep a `var `-free text `var `-free;
      the var patch leaves no `var ` at all. */
  lemma PatchLineNoVar(text: string, c: LineCheck)
    requires c.usesVar || !Contains(text, "var ")
    ensures !Contains(PatchLine(text, c), "var ")
  {
    var line := c.line;
    var t1 := if c.stringError then ReplaceFirst(text, line, QuoteFixedLine(line)) else text;
    var t2 := if c.missingSemicolon then ReplaceFirst(t1, line, line + ";") else t1;
    assert PatchLine(text, c) == if c.usesVar then ReplaceAll(t2, "var ", "const ") else t2;
    if c.usesVar {
      NoVarAfterReplaceContains(t2);
    } else {
      if c.stringError {
        QuotePatchKeepsNoVar(text, line);
      }
      if c.missingSemicolon {
        SemicolonPatchKeepsNoVar(t1, line);
      }
    }
  }

  lemma {:induction false} FixesOfNoVar(code: string, checks: seq<LineCheck>)
    requires exists k :: 0 <= k < |checks| && checks[k].usesVar
    ensures !Contains(FixesOf(code, checks), "var ")
    decreases |checks|
  {
    var n := |checks| - 1;
    if !checks[n].usesVar {
      var k :| 0 <= k < |checks| && checks[k].usesVar;
      assert checks[..n][k] == checks[k];
      FixesOfNoVar(code, checks[..n]);
    }
    PatchLineNoVar(FixesOf(code, checks[..n]), checks[n]);
  }

  /** If any line contains `var ` (after trimming), the fixed text contains none:
      every occurrence has become `const `. */
  lemma SimpleFixRemovesVar(code: string)
    requires exists k :: 0 <= k < |Split(code, '\n')| && UsesVar(Split(code, '\n')[k])
    ensures !Contains(SimpleAnalysis(code).fixedCode, "var ")
  {
    var lines := Split(code, '\n');
    var checks := Checks(lines);
    var k :| 0 <= k < |lines| && UsesVar(lines[k]);
    assert checks[k] == CheckLine(lines[k]);
    assert checks[k].usesVar;
    FixesOfNoVar(code, checks);
    assert SimpleAnalysis(code).fixedCode == FixesOf(code, checks);
  }

  // ===========================================================================
  // Line structure of the fixed text

  lemma PatchLineKeepsNewlines(text: string, c: LineCheck)
    ensures Count(PatchLine(text, c), '\n') == Count(text, '\n')
  {
    var line := c.line;
    RepairsKeepNewlines(line);
    var t1 := if c.stringError then ReplaceFirst(text, line, QuoteFixedLine(line)) else text;
    assert Count(t1, '\n') == Count(text, '\n') by {
      CountReplaceFirst(text, line, QuoteFixedLine(line), '\n');
    }
    var t2 := if c.missingSemicolon then ReplaceFirst(t1, line, line + ";") else t1;
    assert Count(t2, '\n') == Count(t1, '\n') by {
      CountReplaceFirst(t1, line, line + ";", '\n');
    }
    assert PatchLine(text, c) == if c.usesVar then ReplaceAll(t2, "var ", "const ") else t2;
    CountReplaceAll(t2, "var ", "const ", '\n');
  }

  /** The two repaired forms of a line have as many newlines as the line. */
  lemma RepairsKeepNewlines(line: string)
    ensures Count(QuoteFixedLine(line), '\n') == Count(line, '\n')
    ensures Count(line + ";", '\n') == Count(line, '\n')
  {
    var k := QuotePosition(line);
    assert line == line[..k] + line[k..];
    CountConcat(line[..k], line[k..], '\n');
    CountConcat(line[..k] + [ClosingQuote(line)], line[k..], '\n');
    CountConcat(line[..k], [ClosingQuote(line)], '\n');
    CountConcat(line, ";", '\n');
  }

  lemma {:induction false} FixesOfKeepsNewlines(code: string, checks: seq<LineCheck>)
    ensures Count(FixesOf(code, checks), '\n') == Count(code, '\n')
    decreases |checks|
  {
    if |checks| > 0 {
      var n := |checks| - 1;
      FixesOfKeepsNewlines(code, checks[..n]);
      PatchLineKeepsNewlines(FixesOf(code, checks[..n]), checks[n]);
    }
  }

  /** The fixed text has as many `\n` characters, hence lines, as the input. */
  lemma SimpleFixKeepsLines(code: string)
    ensures Count(SimpleAnalysis(code).fixedCode, '\n') == Count(code, '\n')
  {
    FixesOfKeepsNewlines(code, Checks(Split(code, '\n')));
  }

  /** Empty input: no issue, and the text comes back as it was. */
  lemma EmptyInput()
    ensures SimpleAnalysis("") == Analysis([], "")
  {
    assert Split("", '\n') == [""];
    var checks := Checks([""]);
    assert checks[..0] == [];
    assert Trim("") == "";
    assert !Contains("", "\"") && !Contains("", "'") && !Contains("", "var ");
    assert checks[0] == LineCheck("", false, false, false);
  }

  /** A patch whose original line text no longer occurs leaves the text as it is. */
  lemma VanishedLineUnpatched(text: string, line: string, rep: string)
    requires !Contains(text, line)
    ensures ReplaceFirst(text, line, rep) == text
  {
  }
}

=== FILE: text.dfy ===
/** The JavaScript string operations the analyzers rely on (`includes`,
    `startsWith`, `endsWith`, `trim`, `toLowerCase`, `split`, `join`,
    `lastIndexOf`, `replace`), restated over ASCII text, together with the
    facts about them that the analyzer proofs use. */
module Text {

  datatype Option<T> = None | Some(value: T)

  // ---------------------------------------------------------------------------
  // Character classes

  /** The ASCII part of JavaScript's `\s` class (also what `trim` removes). */
  predicate IsWhitespace(c: char)
  {
    c == ' ' || c == '\t' || c == '\n' || c == '\r' || c == '\U{000B}' || c == '\U{000C}'
  }

  /** Positions after these characters are line starts for a multiline `^`. */
  predicate IsLineTerminator(c: char)
  {
    c == '\n' || c == '\r'
  }

  predicate IsDigit(c: char)
  {
    '0' <= c <= '9'
  }

  /** The characters of the identifiers ESLint names in a `no-undef` message. */
  predicate IsIdentChar(c: char)
  {
    ('a' <= c <= 'z') || ('A' <= c <= 'Z') || IsDigit(c) || c == '_'
  }

  predicate IsIdentifier(s: string)
  {
    |s| > 0 && forall i :: 0 <= i < |s| ==> IsIdentChar(s[i])
  }

  function LowerChar(c: char): char
  {
    if 'A' <= c <= 'Z' then (c as int + 32) as char else c
  }

  /** `toLowerCase`, ASCII letters only. */
  function ToLower(s: string): (r: string)
    ensures |r| == |s|
    ensures forall i :: 0 <= i < |s| ==> r[i] == LowerChar(s[i])
  {
    seq(|s|, i requires 0 <= i < |s| => LowerChar(s[i]))
  }

  // ---------------------------------------------------------------------------
  // Searching

  predicate StartsWith(s: string, p: string)
  {
    |p| <= |s| && s[..|p|] == p
  }

  predicate EndsWith(s: string, p: string)
  {
    |p| <= |s| && s[|s| - |p|..] == p
  }

  predicate OccursAt(s: string, p: string, i: nat)
  {
    i + |p| <= |s| && s[i..i + |p|] == p
  }

  /** The first position at or after `i` at which `p` occurs in `s`, or -1. */
  function IndexFrom(s: string, p: string, i: nat): (r: int)
    ensures -1 <= r
    ensures r >= 0 ==> i <= r && OccursAt(s, p, r) && forall j: nat :: i <= j < r ==> !OccursAt(s, p, j)
    ensures r == -1 ==> forall j: nat :: i <= j ==> !OccursAt(s, p, j)
    decreases |s| - i
  {
    if i + |p| > |s| then -1
    else if s[i..i + |p|] == p then i
    else IndexFrom(s, p, i + 1)
  }

  /** `indexOf`: the first position at which `p` occurs in `s`, or -1. */
  function IndexOf(s: string, p: string): (r: int)
    ensures -1 <= r
    ensures r >= 0 ==> OccursAt(s, p, r) && forall j: nat :: j < r ==> !OccursAt(s, p, j)
    ensures r == -1 ==> forall j: nat :: !OccursAt(s, p, j)
  {
    IndexFrom(s, p, 0)
  }

  /** `includes`. */
  predicate Contains(s: string, p: string)
  {
    IndexOf(s, p) >= 0
  }

  lemma ContainsAt(s: string, p: string, i: nat)
    requires OccursAt(s, p, i)
    ensures Contains(s, p)
  {
  }

  lemma ContainsChar(s: string, c: char)
    ensures Contains(s, [c]) <==> c in s
  {
    if c in s {
      var i :| 0 <= i < |s| && s[i] == c;
      assert OccursAt(s, [c], i);
    }
    if Contains(s, [c]) {
      var i := IndexOf(s, [c]);
      assert s[i..i + 1] == [c];
      assert s[i] == c;
    }
  }

  /** `lastIndexOf` for a single character. */
  function LastIndexOf(s: string, c: char): (r: int)
    ensures -1 <= r < |s|
    ensures r >= 0 ==> s[r] == c && forall j :: r < j < |s| ==> s[j] != c
    ensures r == -1 ==> c !in s
  {
    if |s| == 0 then -1
    else if s[|s| - 1] == c then |s| - 1
    else LastIndexOf(s[..|s| - 1], c)
  }

  function Count(s: string, c: char): nat
  {
    if |s| == 0 then 0 else (if s[0] == c then 1 else 0) + Count(s[1..], c)
  }

  lemma {:induction false} CountConcat(a: string, b: string, c: char)
    ensures Count(a + b, c) == Count(a, c) + Count(b, c)
  {
    if |a| > 0 {
      assert (a + b)[0] == a[0];
      assert (a + b)[1..] == a[1..] + b;
      CountConcat(a[1..], b, c);
    } else {
      assert a + b == b;
    }
  }

  lemma {:induction false} CountAbsent(s: string, c: char)
    ensures Count(s, c) == 0 <==> c !in s
  {
    if |s| > 0 {
      CountAbsent(s[1..], c);
      assert s == [s[0]] + s[1..];
    }
  }

  // ---------------------------------------------------------------------------
  // trim

  function TrimStart(s: string): (r: string)
    ensures |r| <= |s| && r == s[|s| - |r|..]
    ensures forall i :: 0 <= i < |s| - |r| ==> IsWhitespace(s[i])
    ensures |r| > 0 ==> !IsWhitespace(r[0])
  {
    if |s| > 0 && IsWhitespace(s[0]) then TrimStart(s[1..]) else s
  }

  function TrimEnd(s: string): (r: string)
    ensures |r| <= |s| && r == s[..|r|]
    ensures forall i :: |r| <= i < |s| ==> IsWhitespace(s[i])
    ensures |r| > 0 ==> !IsWhitespace(r[|r| - 1])
  {
    if |s| > 0 && IsWhitespace(s[|s| - 1]) then TrimEnd(s[..|s| - 1]) else s
  }

  /** `trim`: drops leading and trailing whitespace. */
  function Trim(s: string): string
  {
    TrimEnd(TrimStart(s))
  }

  /** Trimming loses only whitespace. */
  lemma TrimKeeps(s: string, c: char)
    requires !IsWhitespace(c)
    ensures c in Trim(s) <==> c in s
  {
    TrimStartKeeps(s, c);
    TrimEndKeeps(TrimStart(s), c);
  }

  lemma {:induction false} TrimStartKeeps(s: string, c: char)
    requires !IsWhitespace(c)
    ensures c in TrimStart(s) <==> c in s
  {
    if |s| > 0 && IsWhitespace(s[0]) {
      TrimStartKeeps(s[1..], c);
      assert TrimStart(s) == TrimStart(s[1..]);
      assert c in s <==> c in s[1..] by {
        if c in s {
          var i :| 0 <= i < |s| && s[i] == c;
          assert i > 0 && s[1..][i - 1] == c;
        }
        if c in s[1..] {
          var j :| 0 <= j < |s[1..]| && s[1..][j] == c;
          assert s[j + 1] == c;
        }
      }
    }
  }

  lemma TrimEndKeeps(s: string, c: char)
    requires !IsWhitespace(c)
    ensures c in TrimEnd(s) <==> c in s
  {
    var t := TrimEnd(s);
    if c in s {
      var i :| 0 <= i < |s| && s[i] == c;
      assert t[i] == s[i];
    }
    if c in t {
      var j :| 0 <= j < |t| && t[j] == c;
      assert s[j] == t[j];
    }
  }

  // ---------------------------------------------------------------------------
  // split / join

  /** `split` on a one-character separator. */
  function Split(s: string, d: char): (r: seq<string>)
    ensures |r| == Count(s, d) + 1
    ensures forall i :: 0 <= i < |r| ==> d !in r[i]
  {
    if |s| == 0 then [""]
    else
      var rest := Split(s[1..], d);
      if s[0] == d then [""] + rest else [[s[0]] + rest[0]] + rest[1..]
  }

  function Join(parts: seq<string>, sep: string): string
  {
    if |parts| == 0 then ""
    else if |parts| == 1 then parts[0]
    else parts[0] + sep + Join(parts[1..], sep)
  }

  /** Joining the pieces of a split restores the text. */
  lemma {:induction false} JoinSplit(s: string, d: char)
    ensures Join(Split(s, d), [d]) == s
  {
    if |s| > 0 {
      var rest := Split(s[1..], d);
      JoinSplit(s[1..], d);
      if s[0] == d {
        assert Join([""] + rest, [d]) == "" + [d] + Join(rest, [d]);
      } else {
        var r := [[s[0]] + rest[0]] + rest[1..];
        if |rest| == 1 {
          assert Join(r, [d]) == [s[0]] + rest[0];
        } else {
          assert r[1..] == rest[1..];
          assert Join(r, [d]) == [s[0]] + rest[0] + [d] + Join(rest[1..], [d]);
        }
      }
    }
  }

  lemma {:induction false} SplitNoSeparator(a: string, d: char)
    requires d !in a
    ensures Split(a, d) == [a]
  {
    if |a| > 0 {
      SplitNoSeparator(a[1..], d);
      assert [a[0]] + a[1..] == a;
    }
  }

  lemma {:induction false} SplitCons(a: string, b: string, d: char)
    requires d !in a
    ensures Split(a + [d] + b, d) == [a] + Split(b, d)
  {
    var s := a + [d] + b;
    if |a| == 0 {
      assert s[1..] == b;
    } else {
      assert s[1..] == a[1..] + [d] + b;
      SplitCons(a[1..], b, d);
      assert [a[0]] + a[1..] == a;
    }
  }

  // ---------------------------------------------------------------------------
  // replace

  /** `replace` with a string pattern: only the first occurrence changes. */
  function ReplaceFirst(s: string, p: string, rep: string): string
  {
    var i := IndexOf(s, p);
    if i < 0 then s else s[..i] + rep + s[i + |p|..]
  }

  /** `replace` with a global pattern: every non-overlapping occurrence, left to right. */
  function ReplaceAll(s: string, p: string, rep: string): string
    requires |p| > 0
  {
    if StartsWith(s, p) then rep + ReplaceAll(s[|p|..], p, rep)
    else if |s| == 0 then ""
    else [s[0]] + ReplaceAll(s[1..], p, rep)
  }

  /** Inserting a character that the pattern does not contain creates no occurrence. */
  lemma InsertKeepsAbsent(s: string, k: nat, c: char, p: string)
    requires k <= |s| && c !in p && !Contains(s, p)
    ensures !Contains(s[..k] + [c] + s[k..], p)
  {
    var t := s[..k] + [c] + s[k..];
    assert forall m :: 0 <= m < k ==> t[m] == s[m];
    assert forall m :: k < m < |t| ==> t[m] == s[m - 1];
    if Contains(t, p) {
      var j := IndexOf(t, p);
      if j + |p| <= k {
        assert t[j..j + |p|] == s[j..j + |p|];
        ContainsAt(s, p, j);
      } else if j > k {
        assert t[j..j + |p|] == s[j - 1..j - 1 + |p|];
        ContainsAt(s, p, j - 1);
      } else {
        OccurrenceChar(t, p, j, k);
        assert false;
      }
    }
  }

  lemma OccurrenceChar(t: string, p: string, j: nat, m: nat)
    requires OccursAt(t, p, j) && j <= m < j + |p|
    ensures t[m] in p
  {
    assert t[j..j + |p|][m - j] == t[m];
  }

  /** A first-occurrence replacement that inserts one character into the matched text
      is that insertion at the matching place of the whole text. */
  lemma ReplaceFirstInserts(s: string, line: string, k: nat, c: char)
    requires k <= |line|
    ensures var i := IndexOf(s, line);
            ReplaceFirst(s, line, line[..k] + [c] + line[k..])
            == if i < 0 then s else s[..i + k] + [c] + s[i + k..]
  {
    var i := IndexOf(s, line);
    if i >= 0 {
      var pre, post := s[..i], s[i + |line|..];
      assert s == pre + line + post;
      calc {
        ReplaceFirst(s, line, line[..k] + [c] + line[k..]);
        pre + (line[..k] + [c] + line[k..]) + post;
        (pre + line[..k]) + [c] + (line[k..] + post);
        { assert pre + line[..k] == s[..i + k]; assert line[k..] + post == s[i + k..]; }
        s[..i + k] + [c] + s[i + k..];
      }
    }
  }

  lemma CountReplaceFirst(s: string, p: string, rep: string, c: char)
    requires Count(p, c) == Count(rep, c)
    ensures Count(ReplaceFirst(s, p, rep), c) == Count(s, c)
  {
    var i := IndexOf(s, p);
    if i >= 0 {
      assert s == s[..i] + p + s[i + |p|..];
      CountConcat(s[..i] + p, s[i + |p|..], c);
      CountConcat(s[..i], p, c);
      CountConcat(s[..i] + rep, s[i + |p|..], c);
      CountConcat(s[..i], rep, c);
    }
  }

  lemma {:induction false} CountReplaceAll(s: string, p: string, rep: string, c: char)
    requires |p| > 0 && Count(p, c) == Count(rep, c)
    ensures Count(ReplaceAll(s, p, rep), c) == Count(s, c)
    decreases |s|
  {
    if StartsWith(s, p) {
      CountReplaceAll(s[|p|..], p, rep, c);
      CountConcat(rep, ReplaceAll(s[|p|..], p, rep), c);
      assert s == p + s[|p|..];
      CountConcat(p, s[|p|..], c);
    } else if |s| > 0 {
      CountReplaceAll(s[1..], p, rep, c);
      CountConcat([s[0]], ReplaceAll(s[1..], p, rep), c);
    }
  }

  // ---------------------------------------------------------------------------
  // Decimal numerals

  function DigitValue(c: char): nat
    requires IsDigit(c)
  {
    c as int - '0' as int
  }

  function DigitChar(d: nat): (c: char)
    requires d < 10
    ensures IsDigit(c) && DigitValue(c) == d
  {
    ('0' as int + d) as char
  }

  predicate AllDigits(s: string)
  {
    forall i :: 0 <= i < |s| ==> IsDigit(s[i])
  }

  /** The value of a numeral, most significant digit first. */
  function DecimalValue(ds: string): nat
    requires AllDigits(ds)
  {
    if |ds| == 0 then 0 else 10 * DecimalValue(ds[..|ds| - 1]) + DigitValue(ds[|ds| - 1])
  }

  /** `String(n)` / a template's `${n}` for a natural number. */
  function ShowNat(n: nat): (r: string)
    ensures |r| > 0 && AllDigits(r)
  {
    if n < 10 then [DigitChar(n)] else ShowNat(n / 10) + [DigitChar(n % 10)]
  }

  lemma {:induction false} DecimalShow(n: nat)
    ensures DecimalValue(ShowNat(n)) == n
  {
    if n >= 10 {
      var s := ShowNat(n);
      assert s[..|s| - 1] == ShowNat(n / 10);
      DecimalShow(n / 10);
    }
  }

  /** The longest prefix of `s` made of digits (what `\d+` takes greedily). */
  function LeadingDigits(s: string): (r: string)
    ensures AllDigits(r) && StartsWith(s, r)
    ensures |r| < |s| ==> !IsDigit(s[|r|])
  {
    if |s| > 0 && IsDigit(s[0]) then [s[0]] + LeadingDigits(s[1..]) else ""
  }

  lemma {:induction false} LeadingDigitsOf(ds: string, q: string)
    requires AllDigits(ds)
    requires |q| == 0 || !IsDigit(q[0])
    ensures LeadingDigits(ds + q) == ds
  {
    if |ds| > 0 {
      assert (ds + q)[1..] == ds[1..] + q;
      LeadingDigitsOf(ds[1..], q);
      assert [ds[0]] + ds[1..] == ds;
    }
  }
}
